=== FILE: README.md ===
# CuraSync dashboard state logic in Dafny

This project models the state logic behind five pages of the CuraSync
Next.js dashboard:

- **Patient connection requests** (`RequestNotifications`). The page gets requests from laboratories,
  pharmacies and doctors. It splits each category into a pending list and an
  accepted list, using the record's string status (`"false"` or `"true"`).
  Once the server accepts a request, the page moves it one way, from pending
  to accepted, and stamps it with the current UTC date (the date part of `toISOString()`). The six lists live in the class
  `RequestBoard`.
- **Pharmacy chat with one patient** (`PharmacyChat`). The message history is
  replaced by a fetch and grows by socket deliveries. Sending is guarded
  against blank input. A sent message carries the calendar date in UTC+05:30
  as `YYYY-MM-DD`. A message payload decodes to its `message` member or to
  `"No message"`. The page state lives in the class `ChatView`.
- **Laboratory settings** (`LabSettings`). This covers the contact-method rows loaded from the stored
  JSON text, the add/remove/edit handlers that never leave fewer than one
  row, the 5 MiB picture gate, and the laboratory-name field. The form lives
  in the class `LabSettingsForm`.
- **Doctor settings** (`DoctorSettings`). This covers per-field edits of the profile record, the
  education and certification list editors, the comma-separated hospital
  field, the picture checks (size, then an unanchored case-insensitive MIME
  match) and the save request body. The form lives in the class
  `DoctorSettingsForm`.
- **Pharmacy patient list** (`PatientList`). This covers the case-insensitive search filter and
  the link to a patient's chat page, which the chat page reads back.

Shared modules model the JavaScript built-ins the pages rely on:

- `Seqs`: `Array.prototype.filter` and index removal.
- `Text`: `trim`, ASCII `toLowerCase`, `includes`, `split` and `join`.
- `Json`: parsed values, truthiness and property lookup.
- `CivilDate`: the calendar date that `Date.prototype.toISOString` gives for a
  time value (ECMA-262, section 21.4.1), proved against a reference day count.
- `QueryString`: `useSearchParams().get(name)`. This is the WHATWG URL
  parser's clean-up, the query between `?` and `#`, and
  `application/x-www-form-urlencoded` parsing.

Each HTTP request, socket delivery and Cloudinary upload becomes a parameter.
That parameter is an `Outcome` (`Success(data)` or `Failure`), and the state
change depends on it. `JSON.parse` is a parameter
`string -> Parse`, where a parse is `Parsed(value)` or `Malformed`. The clock is a
parameter `nowMs`, and the locale-formatted time is a string parameter.

## Model

| member | source | states |
|---|---|---|
| RequestNotifications.CategoryOf | src/app/dashboard/patient/notification/page.tsx:90-100 | the accept `switch` selects the lab, pharmacy or doctor category exactly for `"lab"`, `"pharmacy"`, `"doctor"`, and no category for any other string |
| RequestNotifications.PendingOf | src/app/dashboard/patient/notification/page.tsx:43-50 | a record is pending iff it was fetched with status `"false"`; order and the partition laws are in PartitionKeepsOrder and PartitionDisjoint |
| RequestNotifications.AcceptedOf | src/app/dashboard/patient/notification/page.tsx:43-50 | a record is accepted iff it was fetched with status `"true"` |
| RequestNotifications.PartitionMembership | src/app/dashboard/patient/notification/page.tsx:43-50 | a record is in a category's pending list iff it was fetched with status `"false"`, and in its accepted list iff it was fetched with status `"true"` |
| RequestNotifications.PartitionDisjoint | src/app/dashboard/patient/notification/page.tsx:43-50 | no record is both pending and accepted; a record with any other status string is in neither list |
| RequestNotifications.PartitionKeepsOrder | src/app/dashboard/patient/notification/page.tsx:43-50 | both lists keep the fetched order: each is a subsequence of the response, and partitioning a concatenation partitions each part |
| RequestNotifications.PartitionStatuses | src/app/dashboard/patient/notification/page.tsx:43-50 | every pending record has status `"false"` and every accepted record has status `"true"` |
| RequestNotifications.FirstIndex | src/app/dashboard/patient/notification/page.tsx:75 | the index of the first record with the id: no earlier record has it, and the record at that index, if any, does |
| RequestNotifications.Find | src/app/dashboard/patient/notification/page.tsx:75 | `find` returns nothing iff no record has the id; otherwise it returns the FIRST record with that id: a listed record with the id, no earlier record having it |
| RequestNotifications.Move | src/app/dashboard/patient/notification/page.tsx:70-88 | `moveRequest` on one category: the pending list left is the pending list filtered to the records without the id, duplicates and order included, whether or not the id was pending; the accepted list keeps its old records as a prefix and grows by one record, with the id and status `"true"`, iff some pending record has the id; MovePresent, MoveAbsent and MoveTwice give the whole result |
| RequestNotifications.MoveAbsent | src/app/dashboard/patient/notification/page.tsx:75-76 | when the id is not pending, the move leaves both lists unchanged |
| RequestNotifications.MovePresent | src/app/dashboard/patient/notification/page.tsx:78-87 | the pending list left is the pending list filtered to the records without the id: the rest, duplicates included, in order. Exactly one record is appended to the accepted list: the first match, with status `"true"`, the new date and time, and every other field copied |
| RequestNotifications.MoveTwice | src/app/dashboard/patient/notification/page.tsx:75-87 | accepting the same id a second time changes neither list |
| RequestNotifications.MoveKeepsSize | src/app/dashboard/patient/notification/page.tsx:75-87 | when the id occurs once among the pending records, the total size of the two lists is unchanged |
| RequestNotifications.MoveKeepsStatuses | src/app/dashboard/patient/notification/page.tsx:78-87 | after a move, pending records are still all `"false"` and accepted records all `"true"` |
| RequestNotifications.RequestBoard.constructor | src/app/dashboard/patient/notification/page.tsx:23-28 | the six lists start empty and satisfy the status invariant |
| RequestNotifications.RequestBoard.FetchRequests | src/app/dashboard/patient/notification/page.tsx:43-62 | when all three GETs succeed, each category's lists become the partition of its response; when any fails, no list changes. The status invariant is kept |
| RequestNotifications.RequestBoard.AcceptRequest | src/app/dashboard/patient/notification/page.tsx:65-105 | a failed POST or an unknown type changes nothing. Otherwise the named category's lists become the move of the request, stamped with the UTC date of the clock; the other categories are untouched; the status invariant is kept |
| RequestNotifications.RequestBoard.SetLists | src/app/dashboard/patient/notification/page.tsx:90-100 | the state setters of one category replace exactly its two lists |
| PharmacyChat.SendDateIsShiftedDay | src/app/dashboard/pharmacy/patient/message/page.tsx:58-66 | for a clock whose shifted value is in range, the send date exists and reads back as a valid calendar date whose day number is `(now + 19 800 000) / 86 400 000` |
| PharmacyChat.SendDateCrossesMidnight | src/app/dashboard/pharmacy/patient/message/page.tsx:58-66 | 20:00 UTC on 1 March 2024 is sent as 2 March 2024 |
| PharmacyChat.DisplayFallback | src/app/dashboard/pharmacy/patient/message/page.tsx:91-102 | a string that does not parse, or a decoded value with no truthy `message` member, is shown as `"No message"`; otherwise the member is shown. A string payload is shown as the value it parses to, unless that value is itself a string. A bubble is never falsy |
| PharmacyChat.SendDate | src/app/dashboard/pharmacy/patient/message/page.tsx:58-66 | the shifted clock's `toISOString()` date exists iff the shifted time value is within the range of a `Date`; SendDateIsShiftedDay names the day |
| PharmacyChat.DecodePayload | src/app/dashboard/pharmacy/patient/message/page.tsx:93-98 | only a string payload is parsed: a non-string is used as is, a string decodes to the value it parses to, or to `{}` when the parse throws |
| PharmacyChat.DisplayText | src/app/dashboard/pharmacy/patient/message/page.tsx:102 | the bubble's text is always truthy, so a bubble is never empty; DisplayFallback says when it is `"No message"` |
| PharmacyChat.ChatView.constructor | src/app/dashboard/pharmacy/patient/message/page.tsx:20-23 | the history and the input start empty; the selected patient is the `patientId` query parameter of the page's URL |
| PharmacyChat.ChatView.ReceiveMessage | src/app/dashboard/pharmacy/patient/message/page.tsx:38-40 | a delivered message is appended at the end; earlier messages keep their order and the length grows by one |
| PharmacyChat.ChatView.FetchMessages | src/app/dashboard/pharmacy/patient/message/page.tsx:45-54 | a successful history fetch replaces the list with the response; a failed one leaves it unchanged |
| PharmacyChat.ChatView.SetNewMessage | src/app/dashboard/pharmacy/patient/message/page.tsx:117 | the input's `onChange` sets the input and nothing else |
| PharmacyChat.ChatView.SendMessage | src/app/dashboard/pharmacy/patient/message/page.tsx:56-81 | blank input makes no request and keeps the input. Otherwise the input is cleared, whatever the POST's outcome. The message list never changes. A request is built iff the input is not blank and the shifted clock is in range. Its body is the input, the shifted date, the local time, sender `pharmacy`, type `message` |
| LabSettings.Key | src/app/dashboard/lab/settings/page.tsx:187 | the edited property is `"type"` exactly for the type field and `"value"` exactly for the value field |
| LabSettings.SomeHasTypeAndValue | src/app/dashboard/lab/settings/page.tsx:83-84 | the `some` test throws only if a `null` entry is listed, and answers false only if no entry is `null` and none has a truthy type and value; SomeHasTypeAndValueIff gives the exact condition |
| LabSettings.SomeHasTypeAndValueIff | src/app/dashboard/lab/settings/page.tsx:83-84 | the `some` test succeeds iff an entry has a truthy type and value and no `null` entry precedes the first one |
| LabSettings.ValidBeforeNullSkip | src/app/dashboard/lab/settings/page.tsx:84 | a leading entry that is neither `null` nor valid does not decide the `some` test |
| LabSettings.LoadContacts | src/app/dashboard/lab/settings/page.tsx:78-101 | the loader always yields at least one row |
| LabSettings.LoadDefaults | src/app/dashboard/lab/settings/page.tsx:79-100 | each of these loads as the single blank row: empty stored text, a parse failure, a non-array, an array with no entry having a truthy type and value, or a `null` entry before the first such entry |
| LabSettings.LoadValidEntries | src/app/dashboard/lab/settings/page.tsx:83-92 | otherwise the rows are exactly the entries with a truthy type and value, in stored order: membership both ways, and a subsequence |
| LabSettings.LoadedRowsAreObjects | src/app/dashboard/lab/settings/page.tsx:86-100 | every loaded row is an object |
| LabSettings.WithField | src/app/dashboard/lab/settings/page.tsx:187-191 | an edit keeps the number of rows |
| LabSettings.EditTouchesOneField | src/app/dashboard/lab/settings/page.tsx:187-191 | an edit sets the named field of the named row. The other field of that row and every other row are unchanged, and the rows stay objects |
| LabSettings.KeptImage | src/app/dashboard/lab/settings/page.tsx:128-136 | a chosen picture is kept iff it exists and is at most 5·1024·1024 bytes; otherwise the selection becomes null |
| LabSettings.LabSettingsForm.constructor | src/app/dashboard/lab/settings/page.tsx:13-34 | the form starts with one blank row, empty name, id and stored text, and no picture |
| LabSettings.LabSettingsForm.SetContactInformation | src/app/dashboard/lab/settings/page.tsx:78-101 | a stored text different from the current one reloads the rows through the loader; the same text again leaves the rows, edits included, as the effect keyed on `contactInformation` does not re-run; the invariant (at least one row, all objects) is kept |
| LabSettings.LabSettingsForm.HandleChange | src/app/dashboard/lab/settings/page.tsx:187-191 | an in-range edit sets one field of one row; an out-of-range index changes nothing; the invariant is kept |
| LabSettings.LabSettingsForm.AddContactField | src/app/dashboard/lab/settings/page.tsx:193-195 | one blank row is appended and the existing rows are unchanged |
| LabSettings.LabSettingsForm.RemoveContactField | src/app/dashboard/lab/settings/page.tsx:197-202 | with at most one row nothing changes. Otherwise exactly the row at the index, if any, is removed and the rest keep their order. The list never drops below one row |
| LabSettings.LabSettingsForm.HandleProfilePicChange | src/app/dashboard/lab/settings/page.tsx:128-136 | the selection becomes the kept picture and nothing else changes |
| LabSettings.LabSettingsForm.HandleLabNameChangeAsWritten | src/app/dashboard/lab/settings/page.tsx:115-117 | as written, the typed name is stored as the laboratory id and the name is unchanged |
| LabSettings.LabSettingsForm.HandleLabNameChange | src/app/dashboard/lab/settings/page.tsx:115-117 | corrected: the typed text becomes the name and the read-only id is unchanged |
| LabSettings.LabNameEditAsWritten | src/app/dashboard/lab/settings/page.tsx:115-117 | typing into the name box of a fresh form leaves the box showing the empty name and puts the text into the read-only id |
| LabSettings.LabNameEdit | src/app/dashboard/lab/settings/page.tsx:115-117 | with the corrected handler the box shows the typed text and the id stays empty |
| DoctorSettings.Get | src/app/dashboard/doctor/settings/page.tsx:16-33 | every property holds a value of its declared type |
| DoctorSettings.SetField | src/app/dashboard/doctor/settings/page.tsx:196 | the spread update sets the named property to the value and leaves every other property as it was |
| DoctorSettings.ProfileExtensional | src/app/dashboard/doctor/settings/page.tsx:16-33 | two profiles with equal properties are equal |
| DoctorSettings.SetFieldLaws | src/app/dashboard/doctor/settings/page.tsx:196 | writing a property's own value changes nothing; of two writes to one property the second wins |
| DoctorSettings.TrimEach | src/app/dashboard/doctor/settings/page.tsx:397 | trimming each piece keeps the number of pieces |
| DoctorSettings.HospitalsText | src/app/dashboard/doctor/settings/page.tsx:396 | the box shows the list joined with `", "`; HospitalsRoundTrip reads it back, and HospitalsEmptyReadsBackBlank and HospitalsCommaSplitsName show where that stops |
| DoctorSettings.TrimEachClean | src/app/dashboard/doctor/settings/page.tsx:397 | every trimmed piece is trimmed, and trimming brings in no comma |
| DoctorSettings.ParseHospitals | src/app/dashboard/doctor/settings/page.tsx:397 | the box always stores at least one name; ParseHospitalsClean and HospitalsRoundTrip state the content |
| DoctorSettings.ParseHospitalsClean | src/app/dashboard/doctor/settings/page.tsx:397 | whatever is typed, every stored name is trimmed and contains no comma |
| DoctorSettings.HospitalsTypingDropsSpace | src/app/dashboard/doctor/settings/page.tsx:396-397 | each keystroke stores the parsed list and the box shows it joined again, so `"City "` is stored as `["City"]` and shown as `"City"`, and typing `H` next gives `["CityH"]`: a name of two words cannot be typed key by key |
| DoctorSettings.HospitalsRoundTrip | src/app/dashboard/doctor/settings/page.tsx:396-397 | for a non-empty list of names without commas or surrounding white space, splitting the `", "`-joined text on `,` and trimming each piece gives the list back |
| DoctorSettings.ParseHospitalsLeadingSpace | src/app/dashboard/doctor/settings/page.tsx:397 | a space in front of the text does not change the parsed list |
| DoctorSettings.ParseHospitalsCons | src/app/dashboard/doctor/settings/page.tsx:397 | a plain name, a comma and a text read back as the name followed by that text's list |
| DoctorSettings.HospitalsEmptyReadsBackBlank | src/app/dashboard/doctor/settings/page.tsx:396-397 | the empty list does not round-trip: it reads back as one empty name |
| DoctorSettings.HospitalsCommaSplitsName | src/app/dashboard/doctor/settings/page.tsx:396-397 | a name containing a comma reads back as two names |
| DoctorSettings.ImageTypeAllowedIff | src/app/dashboard/doctor/settings/page.tsx:150 | a type is accepted iff `image/` followed by one of jpeg, jpg, png, gif, webp occurs somewhere in the lowercased type |
| DoctorSettings.ImageTypeAllowed | src/app/dashboard/doctor/settings/page.tsx:150 | the type test of the picture check; ImageTypeAllowedIff, ImageTypeIgnoresCase, ImageTypeAllowsSuffix and ImageTypeRefusesSvg state what it accepts |
| DoctorSettings.ImageTypeIgnoresCase | src/app/dashboard/doctor/settings/page.tsx:150 | types differing only in ASCII letter case are accepted alike (the `i` flag) |
| DoctorSettings.ImageTypeAllowsSuffix | src/app/dashboard/doctor/settings/page.tsx:150 | the match is unanchored: `image/jpgx` is accepted |
| DoctorSettings.ImageTypeRefusesSvg | src/app/dashboard/doctor/settings/page.tsx:150 | `image/svg+xml` is refused |
| DoctorSettings.CheckImage | src/app/dashboard/doctor/settings/page.tsx:141-153 | the checks run in order: no file; then larger than 5·1024·1024 bytes (before the type is looked at); then an unaccepted type; otherwise the file is accepted. Each outcome is stated as an iff |
| DoctorSettings.PayloadOf | src/app/dashboard/doctor/settings/page.tsx:236-252 | the save body holds every profile property except `rating`, each with the profile's value |
| DoctorSettings.PayloadCopiesAllButRating | src/app/dashboard/doctor/settings/page.tsx:236-252 | the save body copies every profile property except `rating`; profiles differing only in rating are saved alike |
| DoctorSettings.AddedEntryIsTrimmed | src/app/dashboard/doctor/settings/page.tsx:200-203 | an entry added from non-blank input is non-empty and neither starts nor ends with white space |
| DoctorSettings.DoctorSettingsForm.constructor | src/app/dashboard/doctor/settings/page.tsx:38-42 | no profile and empty inputs before the fetch |
| DoctorSettings.DoctorSettingsForm.FetchDoctorProfile | src/app/dashboard/doctor/settings/page.tsx:53-56 | a successful GET sets the profile; a failed one leaves it |
| DoctorSettings.DoctorSettingsForm.HandleProfileChange | src/app/dashboard/doctor/settings/page.tsx:191-197 | with no profile nothing changes; otherwise only the named property changes |
| DoctorSettings.DoctorSettingsForm.HandleHospitalsChange | src/app/dashboard/doctor/settings/page.tsx:396-397 | the hospital list becomes the split-and-trimmed text; nothing else changes |
| DoctorSettings.DoctorSettingsForm.RemoveProfilePic | src/app/dashboard/doctor/settings/page.tsx:186-189 | the picture becomes null and every other property is unchanged |
| DoctorSettings.DoctorSettingsForm.HandleProfilePicChange | src/app/dashboard/doctor/settings/page.tsx:141-184 | the checks' outcome is returned. Only an accepted file with a successful upload changes the profile, and it changes only the picture, to the uploaded URL |
| DoctorSettings.DoctorSettingsForm.SetNewEducation | src/app/dashboard/doctor/settings/page.tsx:431 | the education input's `onChange` sets only that input |
| DoctorSettings.DoctorSettingsForm.SetNewCertification | src/app/dashboard/doctor/settings/page.tsx:463 | the certification input's `onChange` sets only that input |
| DoctorSettings.DoctorSettingsForm.HandleAddEducation | src/app/dashboard/doctor/settings/page.tsx:199-206 | with no profile or blank input nothing changes. Otherwise the trimmed input is appended to the education list and the input is cleared. The certification input is untouched |
| DoctorSettings.DoctorSettingsForm.HandleRemoveEducation | src/app/dashboard/doctor/settings/page.tsx:208-213 | exactly the entry at the index is removed and the rest keep their order; an out-of-range index changes nothing; the inputs are untouched |
| DoctorSettings.DoctorSettingsForm.HandleAddCertification | src/app/dashboard/doctor/settings/page.tsx:215-222 | as for education, on the certification list and input; the education input is untouched |
| DoctorSettings.DoctorSettingsForm.HandleRemoveCertification | src/app/dashboard/doctor/settings/page.tsx:224-229 | as for education, on the certification list |
| DoctorSettings.DoctorSettingsForm.SaveProfile | src/app/dashboard/doctor/settings/page.tsx:231-252 | a body is built iff a profile is loaded, and it carries every property but `rating` with the profile's value |
| PatientList.FilterKeepsMatches | src/app/dashboard/pharmacy/patientlist/page.tsx:45-51 | the filtered list is a subsequence of the patients, and a patient is kept iff the lowercased `first last` or the lowercased id includes the lowercased query |
| PatientList.Matches | src/app/dashboard/pharmacy/patientlist/page.tsx:46-50 | an empty query matches every patient; QueryIgnoresCase shows that case does not matter |
| PatientList.FilteredPatients | src/app/dashboard/pharmacy/patientlist/page.tsx:45-51 | the filtered list is no longer than the list and holds a patient iff it is listed and matches; FilterKeepsMatches adds the order |
| PatientList.EmptyQueryKeepsAll | src/app/dashboard/pharmacy/patientlist/page.tsx:45-51 | an empty query keeps every patient |
| PatientList.FilterIdempotentForQuery | src/app/dashboard/pharmacy/patientlist/page.tsx:45-51 | filtering the result again with the same query changes nothing |
| PatientList.QueryIgnoresCase | src/app/dashboard/pharmacy/patientlist/page.tsx:46 | queries differing only in ASCII letter case give the same list |
| PatientList.MessagePageRoundTrip | src/app/dashboard/pharmacy/patientlist/page.tsx:53-55 | the chat page reads the `patientId` parameter of the link back as the id, for an id without control characters, spaces, `#`, `&`, `%` or `+` |
| PatientList.MessagePageUrl | src/app/dashboard/pharmacy/patientlist/page.tsx:53-55 | the link to the chat page with the id as its `patientId` parameter, unencoded; MessagePageRoundTrip reads the id back |
| PatientList.LinkIsClean | src/app/dashboard/pharmacy/patientlist/page.tsx:54 | the URL parser's clean-up leaves the link unchanged, and the link has no fragment |
| PatientList.LinkQuery | src/app/dashboard/pharmacy/patientlist/page.tsx:54 | the link's query is `patientId=` followed by the id |
| PatientList.KeyQueryPairs | src/app/dashboard/pharmacy/patientlist/page.tsx:54 | that query holds the single pair `patientId` = id |
| QueryString.IndexOf | src/app/dashboard/pharmacy/patient/message/page.tsx:23 | the index of the first occurrence: no earlier character matches, and the character there, if any, does |
| QueryString.IndexOfFirst | src/app/dashboard/pharmacy/patient/message/page.tsx:23 | in `a`, `c`, `b` with no `c` in `a`, the first `c` is just after `a` |
| QueryString.DecodePlain | src/app/dashboard/pharmacy/patient/message/page.tsx:23 | text without `+` and `%` decodes to itself |
| QueryString.Decode | src/app/dashboard/pharmacy/patient/message/page.tsx:23 | decoding never lengthens the text |
| QueryString.GetParam | src/app/dashboard/pharmacy/patient/message/page.tsx:22-23 | `searchParams.get(name)`: the first pair of that name in the query; MessagePageRoundTrip and the constructor of the chat view use it |
| CivilDate.FromDayNumber | src/app/dashboard/pharmacy/patient/message/page.tsx:66 | the civil date computed from a day number is valid and names exactly that day |
| CivilDate.DayNumberInjective | src/app/dashboard/pharmacy/patient/message/page.tsx:66 | two valid dates with the same day number are the same date |
| CivilDate.FromDayNumberOfDate | src/app/dashboard/pharmacy/patient/message/page.tsx:66 | converting a valid date to its day number and back gives the date |
| CivilDate.YearsOfValidTimes | src/app/dashboard/pharmacy/patient/message/page.tsx:66 | every day a `Date` can hold falls in a year of at most six digits |
| CivilDate.DateStringRoundTrip | src/app/dashboard/pharmacy/patient/message/page.tsx:66 | every `YYYY-MM-DD` (or `±YYYYYY-MM-DD`) string written for a valid date reads back as that date |
| CivilDate.DateStringShape | src/app/dashboard/patient/notification/page.tsx:85 | a written date is `YYYY-MM-DD` for years 0 to 9999 and `±YYYYYY-MM-DD` otherwise, with digits in every digit position |
| CivilDate.YearStringRoundTrip | src/app/dashboard/pharmacy/patient/message/page.tsx:66 | every written year reads back as that year |
| CivilDate.DigitsRoundTrip | src/app/dashboard/pharmacy/patient/message/page.tsx:66 | zero-padded decimal digits read back as the number |
| CivilDate.IsoDateOfTime | src/app/dashboard/patient/notification/page.tsx:85 | `toISOString().split("T")[0]` exists iff the time value is within ±8.64e15 ms. It then reads back as a valid date whose day number is the floor of the time over one day; the string has the ISO 8601 layout: ten characters `YYYY-MM-DD` for years 0 to 9999, otherwise thirteen characters `±YYYYYY-MM-DD` |
| Text.TrimIsCore | src/app/dashboard/pharmacy/patient/message/page.tsx:57 | `trim` returns the slice between the leading and the trailing white space, and that slice neither starts nor ends with white space |
| Text.BlankIffAllSpace | src/app/dashboard/pharmacy/patient/message/page.tsx:57 | `!s.trim()` holds iff every character of `s` is white space |
| Text.TrimIdempotent | src/app/dashboard/doctor/settings/page.tsx:203 | trimming twice is trimming once |
| Text.TrimKeepsOut | src/app/dashboard/doctor/settings/page.tsx:397 | trimming brings in no character the text did not have |
| Text.TrimLeadingSpace | src/app/dashboard/doctor/settings/page.tsx:397 | a space in front of a string is removed by `trim` |
| Text.LowerAsciiIdempotent | src/app/dashboard/pharmacy/patientlist/page.tsx:46 | lowercasing twice is lowercasing once |
| Text.LowerAsciiOfSameIgnoringCase | src/app/dashboard/pharmacy/patientlist/page.tsx:46 | strings differing only in ASCII letter case lowercase to the same string |
| Text.ContainsIffOccurs | src/app/dashboard/pharmacy/patientlist/page.tsx:48-49 | `includes` holds iff the substring occurs at some position |
| Text.ContainsEmpty | src/app/dashboard/pharmacy/patientlist/page.tsx:48-49 | every string includes the empty string |
| Text.Split | src/app/dashboard/doctor/settings/page.tsx:397 | `split` always yields at least one piece |
| Text.SplitPiecesFree | src/app/dashboard/doctor/settings/page.tsx:397 | no piece of a split contains the separator |
| Text.JoinSplit | src/app/dashboard/doctor/settings/page.tsx:397 | joining the pieces with the separator gives the text back |
| Text.SplitAfterPiece | src/app/dashboard/doctor/settings/page.tsx:397 | splitting `a`, `c`, `b` with no `c` in `a` gives `a` followed by the pieces of `b` |
| Seqs.Filter | src/app/dashboard/patient/notification/page.tsx:43-50 | `filter` never lengthens the list, and an element is in the result iff it is listed and passes the test |
| Seqs.FilterMembership | src/app/dashboard/patient/notification/page.tsx:43-50 | an element is in the filtered list iff it is listed and passes |
| Seqs.FilterIsSubsequence | src/app/dashboard/pharmacy/patientlist/page.tsx:45-51 | the filtered list is a subsequence of the list |
| Seqs.FilterIdempotent | src/app/dashboard/pharmacy/patientlist/page.tsx:45-51 | filtering twice with the same test is filtering once |
| Seqs.FilterAppend | src/app/dashboard/patient/notification/page.tsx:43-50 | filtering a concatenation concatenates the filtered parts |
| Seqs.RemoveAt | src/app/dashboard/lab/settings/page.tsx:201 | removing index `k` deletes exactly that element and keeps the others in order; an index outside the list changes nothing |
| Seqs.CountComplement | src/app/dashboard/patient/notification/page.tsx:75-87 | the elements passing a test and those passing its negation together make up the list |

## Left out

- JSX rendering, Tailwind classes, skeleton loaders, toasts and `console` output. They carry no state logic.
- The socket.io connection lifecycle (`io`, `connect`, `disconnect`). Only the effect of one delivered `receive-message` event is modelled.
- `localStorage`, the access token and role gating are external session state.
- The HTTP calls (`api`, `axios`, `fetch`) and the Cloudinary upload. Each is a `Success`/`Failure` parameter that gates the state change.
- The patient-list fetch (`fetchList`), the `loading`, `isUploading` and `isSaving` flags, and `router.refresh`/`router.push` navigation. They are I/O around the logic; the link itself is modelled.
- The laboratory profile fetch and its double request. Their ordering is I/O. The form keeps only the fields the modelled handlers touch (`labId`, `labName`, `contactInformation`, the rows and the picture), and the description, phone, location and save handlers are not modelled.
- `JSON.parse` internals. A parse is a parameter returning `Parsed` or `Malformed`, and JSON numbers are integers only.
- `toLocaleTimeString` and locale formatting. `addedTime` and the accepted request's time are string parameters, because they depend on the browser's time zone.
- The time-of-day part of the clock. `nowMs` is an integer number of milliseconds, so the `5.5 * 60 * 60 * 1000` product is exact.
- `toLowerCase` beyond ASCII. Unicode case mappings are not modelled. For the picture check's `/i` regular expression (no `u` flag), only ASCII letters matter, because every pattern character is ASCII.
- QueryString.Decode: percent-escapes of bytes above 0x7F (UTF-8 sequences) are kept literally rather than decoded. The URL parser's own percent-encoding of the query is also left out. Both are outside the plain ids that the round trip covers.
- PatientList.MessagePageRoundTrip is proved for ids of plain characters only. Ids with `&`, `#`, `%`, `+`, spaces or control characters are not read back unchanged, because the link does not encode them.
- React's closure-versus-updater distinction. `handleAcceptRequest` reads the pending list from the closure but writes through updater functions. `handleChange` writes into a shallow copy whose row objects are shared with the old state. The model treats each handler as one atomic update of the current state.
- DoctorSettings.DoctorSettingsForm.HandleProfileChange requires the value to have the property's declared type (`Fits`). The TypeScript signature accepts any string, string list or null for any property; an ill-typed write is not modelled.
- The chat input is cleared after a failed send, because the code calls `setNewMessage("")` after the `try`/`catch`. A design that keeps the text on failure would differ; the model follows the code.
- RequestNotifications.RequestBoard.AcceptRequest requires the clock to be within ±8.64e15 ms. `new Date()` always is, so the `RangeError` that `toISOString` would throw there is not modelled.

## Findings

| source | as written | input that shows it | evidently intended | confidence | as-written member | corrected member |
|---|---|---|---|---|---|---|
| src/app/dashboard/lab/settings/page.tsx:115-117 | `handleLabNameChange` stores the typed text with `setLabId`. The "Laboratory Name" box displays `labName` (lines 318-322), so it never shows what is typed, and the read-only "Laboratory Id" box (lines 285-289) changes instead | typing `Central Lab` into the Laboratory Name box of a freshly loaded form | `setLabName(e.target.value)`: the name box shows and stores the typed name, and the id is untouched | not executed | LabSettings.LabNameEditAsWritten | LabSettings.LabNameEdit |

=== FILE: chat.dfy ===
/** The pharmacy's chat page with one patient
    (src/app/dashboard/pharmacy/patient/message/page.tsx): the message
    history, the text input, sending a message with a UTC+05:30 calendar
    date, and how a message's payload is decoded for display. */
module PharmacyChat {

  import opened Outcomes
  import opened Text
  import Json
  import CivilDate
  import QueryString

  /** Who wrote a message. */
  datatype Sender = Pharmacy | Patient

  /** The `type` of a message. */
  datatype Kind = PlainMessage | Prescription

  /** One chat message. `data` is declared a string holding a JSON text, but
      a delivered message may carry any JSON value there. `addedDate` is
      `YYYY-MM-DD`, `addedTime` `HH:MM`. */
  datatype Message = Message(
    patientId: string,
    data: Json.Value,
    addedDate: string,
    addedTime: string,
    sender: Sender,
    kind: Kind)

  /** The body of the send POST. */
  datatype SendRequest = SendRequest(
    patientId: Option<string>,
    message: string,
    addedDate: string,
    addedTime: string,
    sender: Sender,
    kind: Kind)

  /** Five and a half hours in milliseconds: the UTC+05:30 shift applied to
      the clock before its UTC date is taken. */
  const SriLankaOffsetMs: int := 19_800_000

  /** The date part of `toISOString()` of the clock shifted to UTC+05:30, or
      `None` when the shifted time is outside the range of time values (the
      `RangeError` `toISOString` throws). */
  function SendDate(nowMs: int): (r: Option<string>)
    ensures r.Some? <==> -CivilDate.MaxTimeValue <= nowMs + 19_800_000 <= CivilDate.MaxTimeValue
  {
    CivilDate.IsoDateOfTime(nowMs + SriLankaOffsetMs)
  }

  /** The send date is the calendar date, in UTC+05:30, of the clock: its
      day number is the shifted time divided by the length of a day, and the
      date string reads back as that valid date. */
  lemma SendDateIsShiftedDay(nowMs: int)
    requires -CivilDate.MaxTimeValue <= nowMs + SriLankaOffsetMs <= CivilDate.MaxTimeValue
    ensures SendDate(nowMs).Some?
    ensures CivilDate.ParseDate(SendDate(nowMs).value).Some?
    ensures CivilDate.ValidDate(CivilDate.ParseDate(SendDate(nowMs).value).value)
    ensures CivilDate.DayNumber(CivilDate.ParseDate(SendDate(nowMs).value).value)
            == (nowMs + 19_800_000) / CivilDate.MsPerDay
  {
  }

  /** 20:00 UTC on 1 March 2024 is already 2 March in UTC+05:30. */
  lemma SendDateCrossesMidnight()
    ensures SendDate(1_709_323_200_000).Some?
    ensures CivilDate.ParseDate(SendDate(1_709_323_200_000).value)
            == Some(CivilDate.Date(2024, 3, 2))
  {
    var t := 1_709_323_200_000 + SriLankaOffsetMs;
    assert t / CivilDate.MsPerDay == 19784;
    var d := CivilDate.Date(2024, 3, 2);
    assert CivilDate.ValidDate(d);
    assert CivilDate.DayNumber(d) == 19784;
    var parsed := CivilDate.ParseDate(SendDate(1_709_323_200_000).value);
    CivilDate.DayNumberInjective(parsed.value, d);
  }

  /** `typeof data === "string" ? JSON.parse(data) : data`, with `{}` when
      the parse throws. */
  function DecodePayload(data: Json.Value, parse: string -> Json.Parse): (r: Json.Value)
    ensures !data.Str? ==> r == data
    ensures data.Str? && parse(data.s).Parsed? ==> r == parse(data.s).value
    ensures data.Str? && parse(data.s).Malformed? ==> r == Json.Object(map[])
  {
    match data
    case Str(text) =>
      (match parse(text)
       case Parsed(v) => v
       case Malformed => Json.Object(map[]))
    case _ => data
  }

  /** `parsedData?.message || "No message"`: the text shown in a bubble. */
  function DisplayText(data: Json.Value, parse: string -> Json.Parse): (r: Json.Value)
    ensures Json.Truthy(r)
  {
    var field := Json.Get(DecodePayload(data, parse), "message");
    if Json.TruthyField(field) then field.value else Json.Str("No message")
  }

  /** The fallback: a payload whose text does not parse, or whose decoded
      value is not an object with a truthy `message` member, is shown as
      "No message"; otherwise that member is shown, so a bubble is never
      empty. A string is parsed once: it is shown as the value it parses
      to, when that value is not itself a string. */
  lemma DisplayFallback(data: Json.Value, parse: string -> Json.Parse)
    ensures data.Str? && parse(data.s).Malformed? ==>
      DisplayText(data, parse) == Json.Str("No message")
    ensures var v := DecodePayload(data, parse);
      !v.Object? || "message" !in v.members || !Json.Truthy(v.members["message"]) ==>
        DisplayText(data, parse) == Json.Str("No message")
    ensures var v := DecodePayload(data, parse);
      v.Object? && "message" in v.members && Json.Truthy(v.members["message"]) ==>
        DisplayText(data, parse) == v.members["message"]
    ensures data.Str? && parse(data.s).Parsed? && !parse(data.s).value.Str? ==>
      DisplayText(data, parse) == DisplayText(parse(data.s).value, parse)
    ensures Json.Truthy(DisplayText(data, parse))
  {
  }

  /** The page's state: the message list and the text input, for the
      patient named by the `patientId` query parameter of the page's URL
      (`null`, here `None`, when the URL has none). */
  class ChatView {
    var messages: seq<Message>
    var newMessage: string
    const selectedPatient: Option<string>

    /** The page opened at `url`: an empty history and an empty input. */
    constructor (url: string)
      ensures messages == [] && newMessage == ""
      ensures selectedPatient == QueryString.GetParam(url, "patientId")
    {
      messages := [];
      newMessage := "";
      selectedPatient := QueryString.GetParam(url, "patientId");
    }

    /** A `receive-message` event: the message is appended at the end. */
    method ReceiveMessage(m: Message)
      modifies this
      ensures messages == old(messages) + [m]
      ensures |messages| == |old(messages)| + 1
      ensures messages[..|old(messages)|] == old(messages)
      ensures newMessage == old(newMessage)
    {
      messages := messages + [m];
    }

    /** `fetchMessages`: a successful history POST replaces the list with
        its response; a failed one changes nothing. */
    method FetchMessages(response: Outcome<seq<Message>>)
      modifies this
      ensures response.Success? ==> messages == response.data
      ensures response.Failure? ==> messages == old(messages)
      ensures newMessage == old(newMessage)
    {
      if response.Success? {
        messages := response.data;
      }
    }

    /** The input's `onChange`. */
    method SetNewMessage(text: string)
      modifies this
      ensures newMessage == text
      ensures messages == old(messages)
    {
      newMessage := text;
    }

    /** `handleSendMessage` at clock `nowMs` with the local time string
        `localTime`: a blank input does nothing. Otherwise the request is
        built (and posted) unless `toISOString` throws on the shifted
        clock; whether the POST then succeeds or fails, the input is
        cleared. The message list is never changed: a sent message appears
        only when the server echoes it. */
    method SendMessage(nowMs: int, localTime: string) returns (request: Option<SendRequest>)
      modifies this
      ensures IsBlank(old(newMessage)) ==> request.None? && newMessage == old(newMessage)
      ensures !IsBlank(old(newMessage)) ==> newMessage == ""
      ensures messages == old(messages)
      ensures request.Some? <==> !IsBlank(old(newMessage)) && SendDate(nowMs).Some?
      ensures request.Some? ==>
        request.value == SendRequest(selectedPatient, old(newMessage), SendDate(nowMs).value,
                                     localTime, Pharmacy, PlainMessage)
    {
      if IsBlank(newMessage) {
        return None;
      }
      var date := SendDate(nowMs);
      if date.Some? {
        request := Some(SendRequest(selectedPatient, newMessage, date.value, localTime,
                                    Pharmacy, PlainMessage));
      } else {
        request := None;
      }
      newMessage := "";
    }
  }
}

=== FILE: civil_date.dfy ===
/** Calendar dates of ECMAScript time values, as `Date.prototype.toISOString`
    computes them: a time value is a whole number of milliseconds since
    1970-01-01T00:00:00Z, its day is the floor of that divided by the
    milliseconds in a day, and the day is named by a year, month and day of
    the proleptic Gregorian calendar (ECMA-262, section 21.4.1 "Time Values
    and Time Range" and the sections after it). */
module CivilDate {

  import Outcomes

  /** Milliseconds in one day. */
  const MsPerDay: int := 86_400_000

  /** A `Date` holds a time value only when its magnitude is at most
      8.64e15 ms (ECMA-262, section 21.4.1.31 "TimeClip"). */
  const MaxTimeValue: int := 8_640_000_000_000_000

  predicate IsLeapYear(y: int)
  {
    y % 4 == 0 && (y % 100 != 0 || y % 400 == 0)
  }

  function DaysInYear(y: int): int
  {
    if IsLeapYear(y) then 366 else 365
  }

  function DaysInMonth(y: int, m: int): int
    requires 1 <= m <= 12
  {
    if m == 2 then (if IsLeapYear(y) then 29 else 28)
    else if m == 4 || m == 6 || m == 9 || m == 11 then 30
    else 31
  }

  /** Days in the months of year `y` before month `m`. */
  function DaysBeforeMonth(y: int, m: int): int
    requires 1 <= m <= 12
  {
    var common :=
      if m == 1 then 0 else if m == 2 then 31 else if m == 3 then 59
      else if m == 4 then 90 else if m == 5 then 120 else if m == 6 then 151
      else if m == 7 then 181 else if m == 8 then 212 else if m == 9 then 243
      else if m == 10 then 273 else if m == 11 then 304 else 334;
    if m > 2 && IsLeapYear(y) then common + 1 else common
  }

  /** The day number of the first day of year `y`, as ECMA-262 defines
      `DayFromYear` (section 21.4.1.3 "Year Number"). */
  function DayFromYear(y: int): int
  {
    365 * (y - 1970) + (y - 1969) / 4 - (y - 1901) / 100 + (y - 1601) / 400
  }

  /** A calendar date. */
  datatype Date = Date(year: int, month: int, day: int)

  predicate ValidDate(d: Date)
  {
    1 <= d.month <= 12 && 1 <= d.day <= DaysInMonth(d.year, d.month)
  }

  /** The number of the day a date names, counted from 1970-01-01 (day 0):
      the reference definition the conversion below is proved against. */
  function DayNumber(d: Date): int
    requires ValidDate(d)
  {
    DayFromYear(d.year) + DaysBeforeMonth(d.year, d.month) + d.day - 1
  }

  /** Consecutive year numbers step each quotient by one exactly when the
      divisor divides the larger. */
  lemma StepQuotients(a: int)
    ensures (a + 1) / 4 - a / 4 == if (a + 1) % 4 == 0 then 1 else 0
    ensures (a + 1) / 100 - a / 100 == if (a + 1) % 100 == 0 then 1 else 0
    ensures (a + 1) / 400 - a / 400 == if (a + 1) % 400 == 0 then 1 else 0
  {
  }

  lemma LeapDivisors(y: int)
    ensures y % 100 == 0 ==> y % 4 == 0
    ensures y % 400 == 0 ==> y % 100 == 0
  {
  }

  lemma DayFromYearNext(y: int)
    ensures DayFromYear(y + 1) == DayFromYear(y) + 365
      + ((y - 1968) / 4 - (y - 1969) / 4)
      - ((y - 1900) / 100 - (y - 1901) / 100)
      + ((y - 1600) / 400 - (y - 1601) / 400)
  {
  }

  /** Consecutive years start `DaysInYear` days apart. */
  lemma YearLength(y: int)
    ensures DayFromYear(y + 1) == DayFromYear(y) + DaysInYear(y)
  {
    DayFromYearNext(y);
    StepQuotients(y - 1969);
    StepQuotients(y - 1901);
    StepQuotients(y - 1601);
    assert (y - 1968) % 4 == y % 4;
    assert (y - 1900) % 100 == y % 100;
    assert (y - 1600) % 400 == y % 400;
    LeapDivisors(y);
  }

  /** Day number of March 1 of year `y` in closed form: counting years from
      March puts the leap day last. */
  lemma MarchFirst(y: int)
    ensures DayFromYear(y) + DaysBeforeMonth(y, 3)
         == 365 * y + y / 4 - y / 100 + y / 400 - 719468
  {
    assert (y - 1969) / 4 == (y - 1) / 4 - 492;
    assert (y - 1901) / 100 == (y - 1) / 100 - 19;
    assert (y - 1601) / 400 == (y - 1) / 400 - 4;
    StepQuotients(y - 1);
    LeapDivisors(y);
  }

  /** The March-based year `yoe` of a 400-year era and the day `doy` within
      it, for day `doe` of the era (day 0 is March 1 of the era's first
      year). The era's four centuries have 36524, 36524, 36524 and 36525
      days, a century's four-year blocks 1461 days except the last block of
      the first three centuries (1460 days), and a block's years 365 days
      except the last (366). */
  function YearOfEra(doe: int): (r: (int, int))
    requires 0 <= doe < 146097
    ensures var (yoe, doy) := r;
      && 0 <= yoe < 400
      && doe == 365 * yoe + yoe / 4 - yoe / 100 + doy
      && 0 <= doy < 365 + (if IsLeapYear(yoe + 1) then 1 else 0)
  {
    var cent := if doe / 36524 < 3 then doe / 36524 else 3;
    var inCent := doe - 36524 * cent;
    var quad := inCent / 1461;
    var inQuad := inCent - 1461 * quad;
    var yr := if inQuad / 365 < 3 then inQuad / 365 else 3;
    var yoe := 100 * cent + 4 * quad + yr;
    assert 0 <= quad <= 24;
    assert yoe / 4 == 25 * cent + quad;
    assert yoe / 100 == cent;
    (yoe, inQuad - 365 * yr)
  }

  /** Day number of March 1 of year `y`. */
  function MarchFirstDay(y: int): int
  {
    DayFromYear(y) + DaysBeforeMonth(y, 3)
  }

  /** Quotients of a year of era `era` by the leap-year divisors. */
  lemma EraQuotients(era: int, yoe: int)
    requires 0 <= yoe < 400
    ensures (yoe + 400 * era) / 4 == 100 * era + yoe / 4
    ensures (yoe + 400 * era) / 100 == 4 * era + yoe / 100
    ensures (yoe + 400 * era) / 400 == era
  {
    assert (yoe + 400 * era) / 4 == 100 * era + yoe / 4;
    assert (yoe + 400 * era) / 100 == 4 * era + yoe / 100;
  }

  /** Adding a multiple of the divisor keeps the remainder. */
  lemma RemainderShift(x: int, k: int, m: int)
    requires m > 0
    ensures (x + m * k) % m == x % m
  {
    var q, r := x / m, x % m;
    assert x + m * k == m * (q + k) + r;
    DivisionUnique(x + m * k, m, q + k, r);
  }

  /** A quotient and remainder in range are the division's. */
  lemma DivisionUnique(x: int, m: int, q: int, r: int)
    requires m > 0 && 0 <= r < m && x == m * q + r
    ensures x / m == q && x % m == r
  {
    var q', r' := x / m, x % m;
    assert x == m * q' + r';
    if q' < q {
      AtLeastDivisor(m, q - q');
    } else if q < q' {
      AtLeastDivisor(m, q' - q);
    }
  }

  /** A positive multiple of `m` is at least `m`. */
  lemma {:induction false} AtLeastDivisor(m: int, d: int)
    requires m > 0 && d >= 1
    ensures m * d >= m
    decreases d
  {
    if d > 1 {
      AtLeastDivisor(m, d - 1);
      assert m * d == m * (d - 1) + m;
    }
  }

  /** Remainders of the year after a year of era `era` by the leap-year
      divisors: leap years repeat every 400 years. */
  lemma EraRemainders(era: int, yoe: int)
    ensures (yoe + 400 * era + 1) % 4 == (yoe + 1) % 4
    ensures (yoe + 400 * era + 1) % 100 == (yoe + 1) % 100
    ensures (yoe + 400 * era + 1) % 400 == (yoe + 1) % 400
  {
    RemainderShift(yoe + 1, 100 * era, 4);
    RemainderShift(yoe + 1, 4 * era, 100);
    RemainderShift(yoe + 1, era, 400);
    assert yoe + 400 * era + 1 == (yoe + 1) + 4 * (100 * era);
    assert yoe + 400 * era + 1 == (yoe + 1) + 100 * (4 * era);
  }

  /** Year `yoe` of era `era` starts on the day the era's closed form gives,
      and the calendar repeats every 400 years. */
  lemma EraYear(era: int, yoe: int)
    requires 0 <= yoe < 400
    ensures MarchFirstDay(yoe + 400 * era)
         == 146097 * era + 365 * yoe + yoe / 4 - yoe / 100 - 719468
    ensures IsLeapYear(yoe + 400 * era + 1) == IsLeapYear(yoe + 1)
  {
    MarchFirst(yoe + 400 * era);
    EraQuotients(era, yoe);
    EraRemainders(era, yoe);
  }

  /** Days from March 1 to the first day of the `mp`-th month counted from
      March (March is 0, February of the next year 11). */
  function MarchOffset(mp: int): int
  {
    (153 * mp + 2) / 5
  }

  /** The month counted from March that holds day `doy` of a March-based
      year. */
  lemma MarchMonth(doy: int)
    requires 0 <= doy <= 365
    ensures var mp := (5 * doy + 2) / 153;
      && 0 <= mp <= 11
      && MarchOffset(mp) <= doy
      && (mp < 11 ==> doy < MarchOffset(mp + 1))
  {
  }

  /** Months March to December of year `y` start `MarchOffset` days after
      March 1, and each is as long as the gap to the next offset. */
  lemma SpringMonth(y: int, mp: int)
    requires 0 <= mp < 10
    ensures DaysBeforeMonth(y, mp + 3) == DaysBeforeMonth(y, 3) + MarchOffset(mp)
    ensures DaysInMonth(y, mp + 3) == MarchOffset(mp + 1) - MarchOffset(mp)
  {
  }

  /** January and February of year `y + 1` start `MarchOffset` days after
      March 1 of year `y`. */
  lemma WinterMonth(y: int, mp: int)
    requires 10 <= mp <= 11
    ensures DayFromYear(y + 1) + DaysBeforeMonth(y + 1, mp - 9) == MarchFirstDay(y) + MarchOffset(mp)
    ensures mp == 10 ==> DaysInMonth(y + 1, 1) == MarchOffset(11) - MarchOffset(10)
    ensures mp == 11 ==> DaysInMonth(y + 1, 2) == 365 + (if IsLeapYear(y + 1) then 1 else 0) - MarchOffset(11)
  {
    YearLength(y);
  }

  /** The date of day `doy` of the March-based year `y`. */
  function FromMarchYear(y: int, doy: int): (r: Date)
    requires 0 <= doy < 365 + (if IsLeapYear(y + 1) then 1 else 0)
    ensures ValidDate(r) && DayNumber(r) == MarchFirstDay(y) + doy
  {
    var mp := (5 * doy + 2) / 153;
    MarchMonth(doy);
    var d := doy - MarchOffset(mp) + 1;
    if mp < 10 then
      SpringMonth(y, mp);
      Date(y, mp + 3, d)
    else
      WinterMonth(y, mp);
      Date(y + 1, mp - 9, d)
  }

  /** The date of a day number (day 0 is 1970-01-01), proved to name exactly
      that day. */
  function FromDayNumber(z: int): (r: Date)
    ensures ValidDate(r) && DayNumber(r) == z
  {
    var shifted := z + 719468;
    var era := shifted / 146097;
    var (yoe, doy) := YearOfEra(shifted - era * 146097);
    EraYear(era, yoe);
    FromMarchYear(yoe + 400 * era, doy)
  }

  /** Each month ends where the next begins. */
  lemma MonthStep(y: int, m: int)
    requires 1 <= m < 12
    ensures DaysBeforeMonth(y, m + 1) == DaysBeforeMonth(y, m) + DaysInMonth(y, m)
  {
  }

  /** The day number of a valid date lies within its year. */
  lemma DayNumberInYear(d: Date)
    requires ValidDate(d)
    ensures DayFromYear(d.year) <= DayNumber(d) < DayFromYear(d.year + 1)
  {
    YearLength(d.year);
  }

  /** Later years start later. */
  lemma {:induction false} DayFromYearMonotone(a: int, b: int)
    requires a < b
    ensures DayFromYear(a + 1) <= DayFromYear(b)
    decreases b - a
  {
    if a + 1 < b {
      DayFromYearMonotone(a, b - 1);
      YearLength(b - 1);
    }
  }

  /** Later months of one year start later. */
  lemma {:induction false} DaysBeforeMonthMonotone(y: int, m: int, n: int)
    requires 1 <= m < n <= 12
    ensures DaysBeforeMonth(y, m) + DaysInMonth(y, m) <= DaysBeforeMonth(y, n)
    decreases n - m
  {
    MonthStep(y, m);
    if m + 1 < n {
      DaysBeforeMonthMonotone(y, m + 1, n);
    }
  }

  /** A date of an earlier year has a smaller day number. */
  lemma EarlierYearEarlierDay(a: Date, b: Date)
    requires ValidDate(a) && ValidDate(b) && a.year < b.year
    ensures DayNumber(a) < DayNumber(b)
  {
    DayNumberInYear(a);
    DayNumberInYear(b);
    DayFromYearMonotone(a.year, b.year);
  }

  /** Valid dates with the same day number lie in the same year. */
  lemma SameDayNumberSameYear(a: Date, b: Date)
    requires ValidDate(a) && ValidDate(b) && DayNumber(a) == DayNumber(b)
    ensures a.year == b.year
  {
    if a.year < b.year {
      EarlierYearEarlierDay(a, b);
    } else if b.year < a.year {
      EarlierYearEarlierDay(b, a);
    }
  }

  /** Valid dates of one year with the same day number lie in the same
      month. */
  lemma SameDayNumberSameMonth(a: Date, b: Date)
    requires ValidDate(a) && ValidDate(b) && a.year == b.year && DayNumber(a) == DayNumber(b)
    ensures a.month == b.month
  {
    if a.month < b.month {
      DaysBeforeMonthMonotone(a.year, a.month, b.month);
    } else if b.month < a.month {
      DaysBeforeMonthMonotone(a.year, b.month, a.month);
    }
  }

  /** Two valid dates with the same day number are the same date. */
  lemma DayNumberInjective(a: Date, b: Date)
    requires ValidDate(a) && ValidDate(b) && DayNumber(a) == DayNumber(b)
    ensures a == b
  {
    SameDayNumberSameYear(a, b);
    SameDayNumberSameMonth(a, b);
  }

  /** Converting a valid date to its day number and back gives the date. */
  lemma FromDayNumberOfDate(d: Date)
    requires ValidDate(d)
    ensures FromDayNumber(DayNumber(d)) == d
  {
    DayNumberInjective(FromDayNumber(DayNumber(d)), d);
  }

  /** The years of the days a `Date` can hold have at most six digits. */
  lemma YearsOfValidTimes(z: int)
    requires -100_000_000 <= z <= 100_000_000
    ensures -1_000_000 < FromDayNumber(z).year < 1_000_000
  {
    var d := FromDayNumber(z);
    DayNumberInYear(d);
    if d.year >= 1_000_000 {
      if d.year > 1_000_000 {
        DayFromYearMonotone(1_000_000, d.year);
        YearLength(1_000_000);
      }
      assert false;
    }
    if d.year <= -1_000_000 {
      if d.year < -1_000_000 {
        DayFromYearMonotone(d.year, -1_000_000);
      }
      YearLength(-1_000_000);
      assert false;
    }
  }

  /** Ten to the power `w`. */
  function Pow10(w: nat): (r: nat)
    ensures r >= 1
  {
    if w == 0 then 1 else 10 * Pow10(w - 1)
  }

  function DigitChar(v: int): char
    requires 0 <= v < 10
  {
    ('0' as int + v) as char
  }

  predicate IsDigit(c: char)
  {
    '0' <= c <= '9'
  }

  /** `n` in decimal, left-padded with zeros to `w` digits. */
  function Digits(n: nat, w: nat): (r: string)
    requires n < Pow10(w)
    ensures |r| == w
    ensures forall i :: 0 <= i < w ==> IsDigit(r[i])
  {
    if w == 0 then "" else Digits(n / 10, w - 1) + [DigitChar(n % 10)]
  }

  /** The value of a string of decimal digits. */
  function DigitsValue(s: string): nat
    requires forall i :: 0 <= i < |s| ==> IsDigit(s[i])
  {
    if s == [] then 0
    else
      assert IsDigit(s[|s| - 1]);
      10 * DigitsValue(s[..|s| - 1]) + (s[|s| - 1] as int - '0' as int)
  }

  /** Reading back the padded digits of a number gives the number. */
  lemma {:induction false} DigitsRoundTrip(n: nat, w: nat)
    requires n < Pow10(w)
    ensures DigitsValue(Digits(n, w)) == n
  {
    if w > 0 {
      DigitsRoundTrip(n / 10, w - 1);
      var s := Digits(n, w);
      assert s[..|s| - 1] == Digits(n / 10, w - 1);
    }
  }

  /** The year as `toISOString` writes it: four digits for years 0 to
      9999, otherwise a sign and six digits. */
  function YearString(y: int): string
    requires -1_000_000 < y < 1_000_000
  {
    if 0 <= y <= 9999 then Digits(y, 4)
    else if y < 0 then "-" + Digits(-y, 6)
    else "+" + Digits(y, 6)
  }

  /** A date in the ISO 8601 calendar date extended format `YYYY-MM-DD`
      (with the expanded `±YYYYYY` year outside years 0 to 9999). */
  function DateString(d: Date): string
    requires ValidDate(d) && -1_000_000 < d.year < 1_000_000
  {
    YearString(d.year) + "-" + Digits(d.month, 2) + "-" + Digits(d.day, 2)
  }

  /** Reads a year written as `YearString` writes it. */
  function ParseYear(ys: string): Outcomes.Option<int>
  {
    if |ys| == 4 && forall i :: 0 <= i < 4 ==> IsDigit(ys[i]) then
      Outcomes.Some(DigitsValue(ys))
    else if |ys| == 7 && (ys[0] == '+' || ys[0] == '-')
      && forall i :: 1 <= i < 7 ==> IsDigit(ys[i]) then
      var v: int := DigitsValue(ys[1..]);
      Outcomes.Some(if ys[0] == '-' then -v else v)
    else Outcomes.None
  }

  /** Reads a date written as `DateString` writes it. */
  function ParseDate(s: string): Outcomes.Option<Date>
  {
    var n := |s|;
    if n < 10 || s[n - 6] != '-' || s[n - 3] != '-' then Outcomes.None
    else
      var ys, ms, ds := s[..n - 6], s[n - 5..n - 3], s[n - 2..];
      if !(forall i :: 0 <= i < 2 ==> IsDigit(ms[i]) && IsDigit(ds[i])) then Outcomes.None
      else match ParseYear(ys)
        case None => Outcomes.None
        case Some(y) => Outcomes.Some(Date(y, DigitsValue(ms), DigitsValue(ds)))
  }

  /** Every year `YearString` writes is read back as that year. */
  lemma YearStringRoundTrip(y: int)
    requires -1_000_000 < y < 1_000_000
    ensures ParseYear(YearString(y)) == Outcomes.Some(y)
  {
    var ys := YearString(y);
    if 0 <= y <= 9999 {
      DigitsRoundTrip(y, 4);
    } else if y < 0 {
      assert ys[1..] == Digits(-y, 6);
      DigitsRoundTrip(-y, 6);
    } else {
      assert ys[1..] == Digits(y, 6);
      DigitsRoundTrip(y, 6);
    }
  }

  /** Where the parts of a date string lie. */
  lemma DateStringParts(d: Date)
    requires ValidDate(d) && -1_000_000 < d.year < 1_000_000
    ensures var s := DateString(d);
      && |s| >= 10 && s[|s| - 6] == '-' && s[|s| - 3] == '-'
      && s[..|s| - 6] == YearString(d.year)
      && s[|s| - 5..|s| - 3] == Digits(d.month, 2)
      && s[|s| - 2..] == Digits(d.day, 2)
  {
  }

  /** `w` decimal digits start at index `from` of `s`. */
  predicate DigitsAt(s: string, from: nat, w: nat)
  {
    from + w <= |s| && forall i :: from <= i < from + w ==> IsDigit(s[i])
  }

  /** The layout of an ISO 8601 date of year `year`: `YYYY-MM-DD`, ten
      characters, for years 0 to 9999; otherwise `±YYYYYY-MM-DD`, thirteen
      characters, `-` for years before 0 and `+` after 9999. */
  predicate IsoDateShape(s: string, year: int)
  {
    if 0 <= year <= 9999 then
      |s| == 10 && DigitsAt(s, 0, 4) && s[4] == '-' && DigitsAt(s, 5, 2)
      && s[7] == '-' && DigitsAt(s, 8, 2)
    else
      |s| == 13 && s[0] == (if year < 0 then '-' else '+') && DigitsAt(s, 1, 6)
      && s[7] == '-' && DigitsAt(s, 8, 2) && s[10] == '-' && DigitsAt(s, 11, 2)
  }

  /** Every date `DateString` writes has the ISO 8601 layout of its year. */
  lemma DateStringShape(d: Date)
    requires ValidDate(d) && -1_000_000 < d.year < 1_000_000
    ensures IsoDateShape(DateString(d), d.year)
  {
    var ys, ms, ds := YearString(d.year), Digits(d.month, 2), Digits(d.day, 2);
    var s := DateString(d);
    var k := |ys|;
    assert s == ys + "-" + ms + "-" + ds;
    assert forall i :: 0 <= i < k ==> s[i] == ys[i];
    assert s[k] == '-' && s[k + 3] == '-';
    assert forall i :: 0 <= i < 2 ==> s[k + 1 + i] == ms[i] && s[k + 4 + i] == ds[i];
    if !(0 <= d.year <= 9999) {
      var v := if d.year < 0 then -d.year else d.year;
      assert ys[1..] == Digits(v, 6);
    }
  }

  /** Every date `DateString` writes is read back as that date. */
  lemma DateStringRoundTrip(d: Date)
    requires ValidDate(d) && -1_000_000 < d.year < 1_000_000
    ensures ParseDate(DateString(d)) == Outcomes.Some(d)
  {
    DateStringParts(d);
    YearStringRoundTrip(d.year);
    DigitsRoundTrip(d.month, 2);
    DigitsRoundTrip(d.day, 2);
  }

  /** `new Date(t).toISOString().split("T")[0]`: the calendar date (UTC) of
      time value `t`, or `None` where `toISOString` throws a RangeError
      because `t` is outside the range a `Date` can hold. */
  function IsoDateOfTime(t: int): (r: Outcomes.Option<string>)
    ensures r.Some? <==> -MaxTimeValue <= t <= MaxTimeValue
    ensures r.Some? ==>
      var parsed := ParseDate(r.value);
      parsed.Some? && ValidDate(parsed.value) && DayNumber(parsed.value) == t / MsPerDay
      && IsoDateShape(r.value, parsed.value.year)
  {
    if t < -MaxTimeValue || MaxTimeValue < t then Outcomes.None
    else
      var d := FromDayNumber(t / MsPerDay);
      YearsOfValidTimes(t / MsPerDay);
      DateStringRoundTrip(d);
      DateStringShape(d);
      Outcomes.Some(DateString(d))
  }
}

=== FILE: doctor_settings.dfy ===
/** The doctor's settings page (src/app/dashboard/doctor/settings/page.tsx):
    the profile record and its per-field edits, the education and
    certification list editors, the comma-separated hospital field, the
    profile picture checks and the save request. */
module DoctorSettings {

  import opened Outcomes
  import opened Seqs
  import opened Text
  import opened Uploads

  /** The doctor's profile as the server sends it. */
  datatype Profile = Profile(
    firstName: string,
    lastName: string,
    fullName: string,
    email: string,
    slmcRegisterNumber: string,
    nic: string,
    phoneNumber: string,
    specialization: Option<string>,
    education: seq<string>,
    certifications: seq<string>,
    yearsOfExperience: Option<string>,
    rating: Option<string>,
    currentWorkingHospitals: seq<string>,
    availability: Option<string>,
    description: Option<string>,
    profilePic: Option<string>)

  /** The profile's property names (`keyof DoctorProfile`). */
  datatype Field =
    | FirstName | LastName | FullName | Email | SlmcRegisterNumber | Nic | PhoneNumber
    | Specialization | Education | Certifications | YearsOfExperience | Rating
    | CurrentWorkingHospitals | Availability | Description | ProfilePic

  /** A property's value: a string, a string or `null`, or a list of
      strings. */
  datatype FieldValue = Text(s: string) | Nullable(o: Option<string>) | List(items: seq<string>)

  /** The value has the type the profile declares for the property. */
  predicate Fits(f: Field, v: FieldValue)
  {
    match f
    case FirstName | LastName | FullName | Email | SlmcRegisterNumber | Nic | PhoneNumber => v.Text?
    case Education | Certifications | CurrentWorkingHospitals => v.List?
    case _ => v.Nullable?
  }

  /** `profile[field]`. */
  function Get(p: Profile, f: Field): (v: FieldValue)
    ensures Fits(f, v)
  {
    match f
    case FirstName => Text(p.firstName)
    case LastName => Text(p.lastName)
    case FullName => Text(p.fullName)
    case Email => Text(p.email)
    case SlmcRegisterNumber => Text(p.slmcRegisterNumber)
    case Nic => Text(p.nic)
    case PhoneNumber => Text(p.phoneNumber)
    case Specialization => Nullable(p.specialization)
    case Education => List(p.education)
    case Certifications => List(p.certifications)
    case YearsOfExperience => Nullable(p.yearsOfExperience)
    case Rating => Nullable(p.rating)
    case CurrentWorkingHospitals => List(p.currentWorkingHospitals)
    case Availability => Nullable(p.availability)
    case Description => Nullable(p.description)
    case ProfilePic => Nullable(p.profilePic)
  }

  /** `{ ...profile, [field]: value }`: the named property replaced and
      every other property as it was. */
  function SetField(p: Profile, f: Field, v: FieldValue): (r: Profile)
    requires Fits(f, v)
    ensures Get(r, f) == v
    ensures forall g :: g != f ==> Get(r, g) == Get(p, g)
  {
    match f
    case FirstName => p.(firstName := v.s)
    case LastName => p.(lastName := v.s)
    case FullName => p.(fullName := v.s)
    case Email => p.(email := v.s)
    case SlmcRegisterNumber => p.(slmcRegisterNumber := v.s)
    case Nic => p.(nic := v.s)
    case PhoneNumber => p.(phoneNumber := v.s)
    case Specialization => p.(specialization := v.o)
    case Education => p.(education := v.items)
    case Certifications => p.(certifications := v.items)
    case YearsOfExperience => p.(yearsOfExperience := v.o)
    case Rating => p.(rating := v.o)
    case CurrentWorkingHospitals => p.(currentWorkingHospitals := v.items)
    case Availability => p.(availability := v.o)
    case Description => p.(description := v.o)
    case ProfilePic => p.(profilePic := v.o)
  }

  /** A profile is determined by its properties. */
  lemma {:induction false} ProfileExtensional(p: Profile, q: Profile)
    requires forall f :: Get(p, f) == Get(q, f)
    ensures p == q
  {
    assert Get(p, FirstName) == Get(q, FirstName) && Get(p, LastName) == Get(q, LastName);
    assert Get(p, FullName) == Get(q, FullName) && Get(p, Email) == Get(q, Email);
    assert Get(p, SlmcRegisterNumber) == Get(q, SlmcRegisterNumber) && Get(p, Nic) == Get(q, Nic);
    assert Get(p, PhoneNumber) == Get(q, PhoneNumber) && Get(p, Specialization) == Get(q, Specialization);
    assert Get(p, Education) == Get(q, Education) && Get(p, Certifications) == Get(q, Certifications);
    assert Get(p, YearsOfExperience) == Get(q, YearsOfExperience) && Get(p, Rating) == Get(q, Rating);
    assert Get(p, CurrentWorkingHospitals) == Get(q, CurrentWorkingHospitals);
    assert Get(p, Availability) == Get(q, Availability) && Get(p, Description) == Get(q, Description);
    assert Get(p, ProfilePic) == Get(q, ProfilePic);
  }

  /** Writing back a property's own value changes nothing, and of two
      writes to one property the second wins. */
  lemma SetFieldLaws(p: Profile, f: Field, v: FieldValue, w: FieldValue)
    requires Fits(f, v) && Fits(f, w)
    ensures SetField(p, f, Get(p, f)) == p
    ensures SetField(SetField(p, f, v), f, w) == SetField(p, f, w)
  {
    ProfileExtensional(SetField(p, f, Get(p, f)), p);
    ProfileExtensional(SetField(SetField(p, f, v), f, w), SetField(p, f, w));
  }

  /** The hospitals box's text: `currentWorkingHospitals.join(', ')`. */
  function HospitalsText(hospitals: seq<string>): string
  {
    Join(hospitals, ", ")
  }

  /** `xs.map(h => h.trim())`. */
  function TrimEach(xs: seq<string>): (r: seq<string>)
    ensures |r| == |xs|
  {
    if xs == [] then [] else [Trim(xs[0])] + TrimEach(xs[1..])
  }

  /** Every trimmed piece is trimmed, and trimming brings in no comma. */
  lemma {:induction false} TrimEachClean(xs: seq<string>)
    ensures forall i :: 0 <= i < |xs| ==> Trim(TrimEach(xs)[i]) == TrimEach(xs)[i]
    ensures (forall i :: 0 <= i < |xs| ==> ',' !in xs[i]) ==>
      forall i :: 0 <= i < |xs| ==> ',' !in TrimEach(xs)[i]
  {
    forall i | 0 <= i < |xs|
      ensures TrimEach(xs)[i] == Trim(xs[i])
      ensures Trim(Trim(xs[i])) == Trim(xs[i])
      ensures ',' !in xs[i] ==> ',' !in Trim(xs[i])
    {
      TrimEachAt(xs, i);
      TrimIdempotent(xs[i]);
      TrimKeepsOut(xs[i]);
    }
  }

  /** The piece at index `i` of the trimmed list is the trimmed piece. */
  lemma {:induction false} TrimEachAt(xs: seq<string>, i: int)
    requires 0 <= i < |xs|
    ensures TrimEach(xs)[i] == Trim(xs[i])
  {
    if i > 0 {
      TrimEachAt(xs[1..], i - 1);
    }
  }

  /** The list the hospitals box's `onChange` stores:
      `text.split(',').map(h => h.trim())`. */
  function ParseHospitals(text: string): (r: seq<string>)
    ensures |r| >= 1
  {
    TrimEach(Split(text, ','))
  }

  /** The box stores at least one name, and every stored name is trimmed
      and free of commas, whatever was typed. */
  lemma ParseHospitalsClean(text: string)
    ensures |ParseHospitals(text)| >= 1
    ensures forall i :: 0 <= i < |ParseHospitals(text)| ==>
      ',' !in ParseHospitals(text)[i] && Trim(ParseHospitals(text)[i]) == ParseHospitals(text)[i]
  {
    SplitPiecesFree(text, ',');
    TrimEachClean(Split(text, ','));
  }

  /** Trimming each piece of a list that starts with a given piece. */
  lemma TrimEachCons(x: string, xs: seq<string>)
    ensures TrimEach([x] + xs) == [Trim(x)] + TrimEach(xs)
  {
    assert ([x] + xs)[1..] == xs;
  }

  /** A space in front of a text joins the first piece of its split. */
  lemma SplitSpace(t: string)
    ensures Split(" " + t, ',') == [" " + Split(t, ',')[0]] + Split(t, ',')[1..]
  {
    assert (" " + t)[0] == ' ';
    assert (" " + t)[1..] == t;
  }

  /** Pieces that differ only by a space in front of the first trim to
      the same list. */
  lemma TrimEachSpaced(s: string, t: string, first: string, others: seq<string>)
    requires Split(t, ',') == [first] + others
    requires Split(s, ',') == [" " + first] + others
    ensures ParseHospitals(s) == ParseHospitals(t)
  {
    TrimEachCons(" " + first, others);
    TrimLeadingSpace(first);
    TrimEachCons(first, others);
  }

  /** A space in front of the text only changes the first piece, and
      trimming removes it again. */
  lemma ParseHospitalsLeadingSpace(t: string)
    ensures ParseHospitals(" " + t) == ParseHospitals(t)
  {
    var pieces := Split(t, ',');
    SplitSpace(t);
    assert pieces == [pieces[0]] + pieces[1..];
    TrimEachSpaced(" " + t, t, pieces[0], pieces[1..]);
  }

  /** The joined text of two or more names: the first name, a comma, and
      the rest of the text after a space. */
  lemma JoinCons(hospitals: seq<string>)
    requires |hospitals| >= 2
    ensures HospitalsText(hospitals)
            == hospitals[0] + [','] + (" " + HospitalsText(hospitals[1..]))
  {
    var x, j := hospitals[0], Join(hospitals[1..], ", ");
    assert HospitalsText(hospitals) == x + ", " + j;
    assert ", " == [','] + " ";
  }

  /** A hospital name the text field keeps intact: no comma, and no white
      space at either end. */
  predicate PlainName(x: string)
  {
    ',' !in x && Trim(x) == x
  }

  /** A plain name, a comma and a text that reads back as `rest` read back
      as the name followed by `rest`. */
  lemma ParseHospitalsCons(text: string, x: string, tail: string, rest: seq<string>)
    requires text == x + [','] + tail
    requires PlainName(x)
    requires ParseHospitals(tail) == rest
    ensures ParseHospitals(text) == [x] + rest
  {
    SplitAfterPiece(x, tail, ',');
    TrimEachCons(x, Split(tail, ','));
  }

  /** The hospitals box reads back what it shows: for a non-empty list of
      plain names, splitting the joined text on commas and trimming each
      piece gives the list again. */
  lemma {:induction false} HospitalsRoundTrip(hospitals: seq<string>)
    requires |hospitals| >= 1
    requires forall i :: 0 <= i < |hospitals| ==> PlainName(hospitals[i])
    ensures ParseHospitals(HospitalsText(hospitals)) == hospitals
  {
    var x := hospitals[0];
    assert PlainName(x);
    if |hospitals| == 1 {
      SplitWithoutSeparator(x, ',');
      TrimEachCons(x, []);
    } else {
      var rest := hospitals[1..];
      assert forall i :: 0 <= i < |rest| ==> PlainName(rest[i]) by {
        assert forall i :: 0 <= i < |rest| ==> rest[i] == hospitals[i + 1];
      }
      HospitalsRoundTrip(rest);
      ParseHospitalsLeadingSpace(HospitalsText(rest));
      JoinCons(hospitals);
      ParseHospitalsCons(HospitalsText(hospitals), x, " " + HospitalsText(rest), rest);
      assert hospitals == [x] + rest;
    }
  }

  /** Where the read-back stops: an empty list reads back as one empty
      name. */
  lemma HospitalsEmptyReadsBackBlank()
    ensures ParseHospitals(HospitalsText([])) == [""]
  {
    assert HospitalsText([]) == "";
    TrimEachCons("", []);
  }

  /** A name that contains a comma reads back as two names. */
  lemma HospitalsCommaSplitsName()
    ensures ParseHospitals(HospitalsText(["A, B"])) == ["A", "B"]
  {
    assert HospitalsText(["A, B"]) == "A, B";
    assert ParseHospitals("B") == ["B"] by {
      SplitWithoutSeparator("B", ',');
      TrimEachCons("B", []);
    }
    ParseHospitalsLeadingSpace("B");
    assert PlainName("A");
    ParseHospitalsCons("A, B", "A", " B", ["B"]);
  }

  /** The box is controlled: every keystroke stores the parsed list and the
      box then shows that list joined again. A space typed after a name is
      therefore gone before the next key arrives, and the next letter runs
      on to the name: "City H" cannot be typed key by key. */
  lemma HospitalsTypingDropsSpace()
    ensures ParseHospitals("City ") == ["City"]
    ensures HospitalsText(ParseHospitals("City ")) == "City"
    ensures ParseHospitals(HospitalsText(ParseHospitals("City ")) + "H") == ["CityH"]
  {
    TrimTrailingSpaceOfName();
    ParseOneName("City ");
    TrimOfName();
    assert "City" + "H" == "CityH";
    ParseOneName("CityH");
  }

  /** Text without a comma is stored as its trimmed self. */
  lemma ParseOneName(x: string)
    requires ',' !in x
    ensures ParseHospitals(x) == [Trim(x)]
  {
    SplitWithoutSeparator(x, ',');
    TrimEachCons(x, []);
  }

  /** A trailing space is trimmed off a name. */
  lemma TrimTrailingSpaceOfName()
    ensures Trim("City ") == "City"
  {
    assert LeadingSpaces("City ") == 0;
    assert "City "[..4] == "City";
    assert TrailingSpaces("City ") == 1;
  }

  /** A name without white space trims to itself. */
  lemma TrimOfName()
    ensures Trim("CityH") == "CityH"
  {
    assert LeadingSpaces("CityH") == 0;
    assert TrailingSpaces("CityH") == 0;
  }

  /** The MIME subtypes the picture check accepts after `image/`. */
  const ImageSubtypes: seq<string> := ["jpeg", "jpg", "png", "gif", "webp"]

  /** `/image\/(jpeg|jpg|png|gif|webp)/` matches the lowercased type at
      index `i`: `image/` there, then one of the subtypes. */
  predicate PatternAt(s: string, i: int)
  {
    OccursAt(s, "image/", i)
    && exists k :: 0 <= k < |ImageSubtypes| && OccursAt(s, ImageSubtypes[k], i + 6)
  }

  /** `type.match(/image\/(jpeg|jpg|png|gif|webp)/i)` succeeds: the type,
      with ASCII letters lowercased, includes `image/` followed by one of
      the subtypes. */
  predicate ImageTypeAllowed(mimeType: string)
  {
    exists k :: 0 <= k < |ImageSubtypes| && Contains(LowerAscii(mimeType), "image/" + ImageSubtypes[k])
  }

  /** Two adjacent occurrences are an occurrence of the concatenation. */
  lemma OccursConcat(s: string, a: string, b: string, i: int)
    ensures OccursAt(s, a, i) && OccursAt(s, b, i + |a|) <==> OccursAt(s, a + b, i)
  {
    if OccursAt(s, a + b, i) {
      assert s[i..i + |a|] == s[i..i + |a + b|][..|a|];
      assert s[i + |a|..i + |a| + |b|] == s[i..i + |a + b|][|a|..];
    }
    if OccursAt(s, a, i) && OccursAt(s, b, i + |a|) {
      assert s[i..i + |a + b|] == s[i..i + |a|] + s[i + |a|..i + |a| + |b|];
    }
  }

  /** The type check accepts exactly when the pattern matches somewhere in
      the lowercased type: the match is unanchored. */
  lemma ImageTypeAllowedIff(mimeType: string)
    ensures ImageTypeAllowed(mimeType) <==> exists i :: PatternAt(LowerAscii(mimeType), i)
  {
    var s := LowerAscii(mimeType);
    if ImageTypeAllowed(mimeType) {
      var k :| 0 <= k < |ImageSubtypes| && Contains(s, "image/" + ImageSubtypes[k]);
      ContainsIffOccurs(s, "image/" + ImageSubtypes[k]);
      var i :| OccursAt(s, "image/" + ImageSubtypes[k], i);
      OccursConcat(s, "image/", ImageSubtypes[k], i);
      assert PatternAt(s, i);
    }
    if exists i :: PatternAt(s, i) {
      var i :| PatternAt(s, i);
      var k :| 0 <= k < |ImageSubtypes| && OccursAt(s, ImageSubtypes[k], i + 6);
      OccursConcat(s, "image/", ImageSubtypes[k], i);
      ContainsIffOccurs(s, "image/" + ImageSubtypes[k]);
    }
  }

  /** The `i` flag: types that differ only in the case of ASCII letters are
      accepted alike. */
  lemma ImageTypeIgnoresCase(a: string, b: string)
    requires SameIgnoringCase(a, b)
    ensures ImageTypeAllowed(a) == ImageTypeAllowed(b)
  {
    LowerAsciiOfSameIgnoringCase(a, b);
  }

  /** The outcome of the picture checks. */
  datatype ImageCheck = NoFile | TooLarge | UnsupportedType | Accepted(file: File)

  /** `handleProfilePicChange`'s checks, in order: a file is needed, then
      its size is checked, then its type. */
  function CheckImage(file: Option<File>): (r: ImageCheck)
    ensures r == NoFile <==> file.None?
    ensures r == TooLarge <==> file.Some? && file.value.size > 5 * 1024 * 1024
    ensures r == UnsupportedType <==>
      file.Some? && file.value.size <= 5 * 1024 * 1024 && !ImageTypeAllowed(file.value.mimeType)
    ensures r.Accepted? <==>
      file.Some? && file.value.size <= 5 * 1024 * 1024 && ImageTypeAllowed(file.value.mimeType)
    ensures r.Accepted? ==> r.file == file.value
  {
    if file.None? then NoFile
    else if !WithinSizeLimit(file.value) then TooLarge
    else if !ImageTypeAllowed(file.value.mimeType) then UnsupportedType
    else Accepted(file.value)
  }

  /** The match is not anchored at the end: a subtype may be followed by
      more characters. */
  lemma ImageTypeAllowsSuffix()
    ensures ImageTypeAllowed("image/jpgx")
  {
    var s := LowerAscii("image/jpgx");
    assert s == "image/jpgx";
    assert OccursAt(s, "image/" + ImageSubtypes[1], 0);
    ContainsIffOccurs(s, "image/" + ImageSubtypes[1]);
  }

  /** `image/svg+xml` is refused. */
  lemma ImageTypeRefusesSvg()
    ensures !ImageTypeAllowed("image/svg+xml")
  {
    var s := LowerAscii("image/svg+xml");
    assert s == "image/svg+xml";
    forall k | 0 <= k < |ImageSubtypes|
      ensures !Contains(s, "image/" + ImageSubtypes[k])
    {
      SvgLacksSubtype(ImageSubtypes[k]);
    }
  }

  /** `image/svg+xml` does not include `image/` followed by a subtype of
      three or more characters that does not start with `s`. */
  lemma SvgLacksSubtype(t: string)
    requires |t| >= 3 && t[0] != 's'
    ensures !Contains("image/svg+xml", "image/" + t)
  {
    var s, w := "image/svg+xml", "image/" + t;
    assert |w| >= 9 && w[0] == 'i' && w[6] == t[0];
    forall i ensures !OccursAt(s, w, i) {
      SvgNoOccurrence(s, w, i);
    }
    ContainsIffOccurs(s, w);
  }

  /** The only `i` of `image/svg+xml` is its first character, and `s`
      follows `image/` there: a pattern of nine or more characters that
      starts with `i` and has no `s` at index 6 does not occur in it. */
  lemma SvgNoOccurrence(s: string, w: string, i: int)
    requires s == "image/svg+xml"
    requires |w| >= 9 && w[0] == 'i' && w[6] != 's'
    ensures !OccursAt(s, w, i)
  {
  }

  /** The request body of `handleSaveProfile`: every property but
      `rating`. */
  datatype SavePayload = SavePayload(
    firstName: string,
    lastName: string,
    fullName: string,
    email: string,
    slmcRegisterNumber: string,
    nic: string,
    phoneNumber: string,
    specialization: Option<string>,
    education: seq<string>,
    certifications: seq<string>,
    yearsOfExperience: Option<string>,
    currentWorkingHospitals: seq<string>,
    availability: Option<string>,
    description: Option<string>,
    profilePic: Option<string>)

  /** The body built from a profile. */
  function PayloadOf(p: Profile): (r: SavePayload)
    ensures forall f :: f != Rating ==> PayloadGet(r, f) == Get(p, f)
  {
    SavePayload(p.firstName, p.lastName, p.fullName, p.email, p.slmcRegisterNumber, p.nic,
                p.phoneNumber, p.specialization, p.education, p.certifications,
                p.yearsOfExperience, p.currentWorkingHospitals, p.availability,
                p.description, p.profilePic)
  }

  /** A property of the body, by name; `rating` is not one. */
  function PayloadGet(b: SavePayload, f: Field): FieldValue
    requires f != Rating
  {
    match f
    case FirstName => Text(b.firstName)
    case LastName => Text(b.lastName)
    case FullName => Text(b.fullName)
    case Email => Text(b.email)
    case SlmcRegisterNumber => Text(b.slmcRegisterNumber)
    case Nic => Text(b.nic)
    case PhoneNumber => Text(b.phoneNumber)
    case Specialization => Nullable(b.specialization)
    case Education => List(b.education)
    case Certifications => List(b.certifications)
    case YearsOfExperience => Nullable(b.yearsOfExperience)
    case CurrentWorkingHospitals => List(b.currentWorkingHospitals)
    case Availability => Nullable(b.availability)
    case Description => Nullable(b.description)
    case ProfilePic => Nullable(b.profilePic)
  }

  /** The body copies every property except `rating`, which it leaves out:
      two profiles differing only in their rating are saved alike. */
  lemma PayloadCopiesAllButRating(p: Profile, rating: Option<string>)
    ensures forall f :: f != Rating ==> PayloadGet(PayloadOf(p), f) == Get(p, f)
    ensures PayloadOf(p.(rating := rating)) == PayloadOf(p)
  {
  }

  /** The page's editable state. */
  class DoctorSettingsForm {
    var profile: Option<Profile>
    var newEducation: string
    var newCertification: string

    /** Before the fetch: no profile and empty inputs. */
    constructor ()
      ensures profile.None? && newEducation == "" && newCertification == ""
    {
      profile, newEducation, newCertification := None, "", "";
    }

    /** `fetchDoctorProfile`: a successful GET sets the profile; a failed
        one leaves it as it was. */
    method FetchDoctorProfile(response: Outcome<Profile>)
      modifies this
      ensures response.Success? ==> profile == Some(response.data)
      ensures response.Failure? ==> profile == old(profile)
      ensures newEducation == old(newEducation) && newCertification == old(newCertification)
    {
      if response.Success? {
        profile := Some(response.data);
      }
    }

    /** `handleProfileChange(field, value)`: only that property changes,
        and nothing happens before the profile is loaded. */
    method HandleProfileChange(f: Field, v: FieldValue)
      requires Fits(f, v)
      modifies this
      ensures old(profile).None? ==> profile.None?
      ensures old(profile).Some? ==> profile == Some(SetField(old(profile).value, f, v))
      ensures newEducation == old(newEducation) && newCertification == old(newCertification)
    {
      if profile.Some? {
        profile := Some(SetField(profile.value, f, v));
      }
    }

    /** The hospitals box's `onChange` with the box's new text. */
    method HandleHospitalsChange(text: string)
      modifies this
      ensures old(profile).None? ==> profile.None?
      ensures old(profile).Some? ==>
        profile == Some(old(profile).value.(currentWorkingHospitals := ParseHospitals(text)))
      ensures newEducation == old(newEducation) && newCertification == old(newCertification)
    {
      HandleProfileChange(CurrentWorkingHospitals, List(ParseHospitals(text)));
    }

    /** `removeProfilePic`: the picture becomes `null`, nothing else
        changes. */
    method RemoveProfilePic()
      modifies this
      ensures old(profile).None? ==> profile.None?
      ensures old(profile).Some? ==> profile == Some(old(profile).value.(profilePic := None))
      ensures newEducation == old(newEducation) && newCertification == old(newCertification)
    {
      if profile.Some? {
        profile := Some(profile.value.(profilePic := None));
      }
    }

    /** `handleProfilePicChange` with the file chosen and the outcome of the
        upload: a file that passes the checks is uploaded, and on success
        the profile's picture becomes the uploaded URL. */
    method HandleProfilePicChange(file: Option<File>, upload: Outcome<string>) returns (check: ImageCheck)
      modifies this
      ensures check == CheckImage(file)
      ensures check.Accepted? && upload.Success? && old(profile).Some? ==>
        profile == Some(old(profile).value.(profilePic := Some(upload.data)))
      ensures !(check.Accepted? && upload.Success?) ==> profile == old(profile)
      ensures old(profile).None? ==> profile.None?
      ensures newEducation == old(newEducation) && newCertification == old(newCertification)
    {
      check := CheckImage(file);
      if check.Accepted? && upload.Success? && profile.Some? {
        profile := Some(profile.value.(profilePic := Some(upload.data)));
      }
    }

    /** The education input's `onChange`. */
    method SetNewEducation(text: string)
      modifies this
      ensures newEducation == text
      ensures profile == old(profile) && newCertification == old(newCertification)
    {
      newEducation := text;
    }

    /** The certification input's `onChange`. */
    method SetNewCertification(text: string)
      modifies this
      ensures newCertification == text
      ensures profile == old(profile) && newEducation == old(newEducation)
    {
      newCertification := text;
    }

    /** `handleAddEducation`: with a profile and a non-blank input, the
        trimmed input is appended to the education list and the input is
        cleared; otherwise nothing changes. */
    method HandleAddEducation()
      modifies this
      ensures old(profile).None? || IsBlank(old(newEducation)) ==>
        profile == old(profile) && newEducation == old(newEducation)
      ensures old(profile).Some? && !IsBlank(old(newEducation)) ==>
        && profile == Some(old(profile).value.(education := old(profile).value.education + [Trim(old(newEducation))]))
        && newEducation == ""
      ensures newCertification == old(newCertification)
    {
      if profile.None? || IsBlank(newEducation) {
        return;
      }
      profile := Some(profile.value.(education := profile.value.education + [Trim(newEducation)]));
      newEducation := "";
    }

    /** `handleRemoveEducation(index)`: the entry at that index, if any, is
        removed and the rest keep their order. */
    method HandleRemoveEducation(index: int)
      modifies this
      ensures old(profile).None? ==> profile.None?
      ensures old(profile).Some? ==>
        profile == Some(old(profile).value.(education := RemoveAt(old(profile).value.education, index)))
      ensures newEducation == old(newEducation) && newCertification == old(newCertification)
    {
      if profile.Some? {
        profile := Some(profile.value.(education := RemoveAt(profile.value.education, index)));
      }
    }

    /** `handleAddCertification`: as for education, on the certification
        list and its input. */
    method HandleAddCertification()
      modifies this
      ensures old(profile).None? || IsBlank(old(newCertification)) ==>
        profile == old(profile) && newCertification == old(newCertification)
      ensures old(profile).Some? && !IsBlank(old(newCertification)) ==>
        && profile == Some(old(profile).value.(certifications :=
                             old(profile).value.certifications + [Trim(old(newCertification))]))
        && newCertification == ""
      ensures newEducation == old(newEducation)
    {
      if profile.None? || IsBlank(newCertification) {
        return;
      }
      profile := Some(profile.value.(certifications := profile.value.certifications + [Trim(newCertification)]));
      newCertification := "";
    }

    /** `handleRemoveCertification(index)`. */
    method HandleRemoveCertification(index: int)
      modifies this
      ensures old(profile).None? ==> profile.None?
      ensures old(profile).Some? ==>
        profile == Some(old(profile).value.(certifications := RemoveAt(old(profile).value.certifications, index)))
      ensures newEducation == old(newEducation) && newCertification == old(newCertification)
    {
      if profile.Some? {
        profile := Some(profile.value.(certifications := RemoveAt(profile.value.certifications, index)));
      }
    }

    /** `handleSaveProfile`: the request body, when a profile is loaded. */
    method SaveProfile() returns (request: Option<SavePayload>)
      ensures request.Some? <==> profile.Some?
      ensures request.Some? ==> forall f :: f != Rating ==> PayloadGet(request.value, f) == Get(profile.value, f)
    {
      if profile.None? {
        return None;
      }
      request := Some(PayloadOf(profile.value));
      PayloadCopiesAllButRating(profile.value, None);
    }
  }

  /** An added entry is never blank: it is the trimmed input, which starts
      and ends with a character that is not white space. */
  lemma AddedEntryIsTrimmed(input: string)
    requires !IsBlank(input)
    ensures Trim(input) != [] && !IsBlank(Trim(input))
    ensures !IsSpace(Trim(input)[0]) && !IsSpace(Trim(input)[|Trim(input)| - 1])
  {
    TrimIsCore(input);
    TrimIdempotent(input);
  }
}

=== FILE: json.dfy ===
/** Parsed JSON values as the pages inspect them: JavaScript truthiness and
    optional property lookup. `JSON.parse` itself is not modelled; a parse
    is an outcome, `Parsed(value)` or `Malformed` (the `SyntaxError` it
    throws). */
module Json {

  import opened Outcomes

  /** A JSON value. Numbers are restricted to integers. */
  datatype Value =
    | Null
    | Bool(b: bool)
    | Number(n: int)
    | Str(s: string)
    | Array(items: seq<Value>)
    | Object(members: map<string, Value>)

  /** The outcome of `JSON.parse` on a string. */
  datatype Parse = Parsed(value: Value) | Malformed

  /** JavaScript truthiness: `null`, `false`, `0` and `""` are falsy;
      every array and object is truthy. */
  predicate Truthy(v: Value)
  {
    match v
    case Null => false
    case Bool(b) => b
    case Number(n) => n != 0
    case Str(s) => s != ""
    case Array(_) => true
    case Object(_) => true
  }

  /** `v[key]` for a value that is not `null` (which would throw): a member
      of an object, `undefined` (`None`) for everything else, since the
      pages only ask for keys that arrays and primitives do not have. */
  function Get(v: Value, key: string): (r: Option<Value>)
    ensures r.Some? ==> v.Object? && key in v.members && r.value == v.members[key]
    ensures v.Object? && key in v.members ==> r.Some?
  {
    if v.Object? && key in v.members then Some(v.members[key]) else None
  }

  /** A lookup result is truthy: present and a truthy value. */
  predicate TruthyField(f: Option<Value>)
  {
    f.Some? && Truthy(f.value)
  }
}

=== FILE: lab_settings.dfy ===
/** The laboratory's settings page (src/app/dashboard/lab/settings/page.tsx):
    the editable list of contact methods loaded from the stored
    `contactInformation` JSON text, the profile picture's size gate, and
    the laboratory name field. */
module LabSettings {

  import opened Outcomes
  import opened Seqs
  import opened Json
  import opened Uploads

  /** The two editable fields of a contact. */
  datatype ContactField = TypeField | ValueField

  /** The property name of a field. */
  function Key(f: ContactField): (k: string)
    ensures k == "type" <==> f == TypeField
    ensures k == "value" <==> f == ValueField
  {
    match f
    case TypeField => "type"
    case ValueField => "value"
  }

  /** `{ type: "", value: "" }`: the blank row. */
  const EmptyContact: Value := Object(map["type" := Str(""), "value" := Str("")])

  /** `contact.type && contact.value` on an entry that is not `null`. */
  predicate HasTypeAndValue(e: Value)
  {
    TruthyField(Get(e, "type")) && TruthyField(Get(e, "value"))
  }

  /** `contact && contact.type && contact.value`: the filter's test. */
  predicate IsValidContact(e: Value)
  {
    Truthy(e) && HasTypeAndValue(e)
  }

  /** `entries.some(contact => contact.type && contact.value)`, scanning from
      the left: `None` when a `null` entry is reached first (reading `type`
      of `null` throws a `TypeError`). */
  function SomeHasTypeAndValue(entries: seq<Value>): (r: Option<bool>)
    ensures r.None? ==> exists i :: 0 <= i < |entries| && entries[i].Null?
    ensures r == Some(false) ==>
      forall i :: 0 <= i < |entries| ==> !entries[i].Null? && !HasTypeAndValue(entries[i])
  {
    if entries == [] then Some(false)
    else if entries[0].Null? then None
    else if HasTypeAndValue(entries[0]) then Some(true)
    else SomeHasTypeAndValue(entries[1..])
  }

  /** Some entry has a truthy type and value, and no `null` entry comes
      before it. */
  predicate ValidBeforeNull(entries: seq<Value>)
  {
    exists i :: 0 <= i < |entries| && HasTypeAndValue(entries[i])
      && forall j :: 0 <= j < i ==> !entries[j].Null?
  }

  /** A leading entry that is neither `null` nor valid does not decide
      `ValidBeforeNull`. */
  lemma ValidBeforeNullSkip(entries: seq<Value>)
    requires entries != [] && !entries[0].Null? && !HasTypeAndValue(entries[0])
    ensures ValidBeforeNull(entries) <==> ValidBeforeNull(entries[1..])
  {
    var rest := entries[1..];
    if ValidBeforeNull(entries) {
      var i :| 0 <= i < |entries| && HasTypeAndValue(entries[i])
         && forall j :: 0 <= j < i ==> !entries[j].Null?;
      assert i > 0;
      assert HasTypeAndValue(rest[i - 1]);
      assert forall j :: 0 <= j < i - 1 ==> rest[j] == entries[j + 1];
    }
    if ValidBeforeNull(rest) {
      var i :| 0 <= i < |rest| && HasTypeAndValue(rest[i])
         && forall j :: 0 <= j < i ==> !rest[j].Null?;
      assert HasTypeAndValue(entries[i + 1]);
      assert forall j :: 1 <= j < i + 1 ==> entries[j] == rest[j - 1];
    }
  }

  /** The `some` test succeeds exactly when some entry has a truthy type and
      value and no `null` entry precedes the first such entry. */
  lemma {:induction false} SomeHasTypeAndValueIff(entries: seq<Value>)
    ensures SomeHasTypeAndValue(entries) == Some(true) <==> ValidBeforeNull(entries)
  {
    if entries != [] && !entries[0].Null? && !HasTypeAndValue(entries[0]) {
      SomeHasTypeAndValueIff(entries[1..]);
      ValidBeforeNullSkip(entries);
    } else if entries != [] && !entries[0].Null? {
      assert HasTypeAndValue(entries[0]);
    }
  }

  /** The effect on `contactInformation`: the stored entries that have a
      truthy type and value, in order, when the text is non-empty, parses
      to a non-empty array and the `some` test passes; the single blank row
      in every other case, including a parse failure or a `TypeError`. */
  function LoadContacts(contactInformation: string, parse: string -> Parse): (r: seq<Value>)
    ensures |r| >= 1
  {
    if contactInformation == [] then [EmptyContact]
    else match parse(contactInformation)
      case Malformed => [EmptyContact]
      case Parsed(v) =>
        if v.Array? && |v.items| > 0 && SomeHasTypeAndValue(v.items) == Some(true) then
          var valid := Filter(IsValidContact, v.items);
          if |valid| > 0 then valid else [EmptyContact]
        else [EmptyContact]
  }

  /** The default row: an empty text, a parse failure, a value that is not
      an array, an empty array, an array where no entry has a truthy type
      and value, or one where a `null` comes before the first such entry,
      all load as the single blank row. */
  lemma LoadDefaults(contactInformation: string, parse: string -> Parse)
    ensures contactInformation == [] ==> LoadContacts(contactInformation, parse) == [EmptyContact]
    ensures parse(contactInformation).Malformed? ==>
      LoadContacts(contactInformation, parse) == [EmptyContact]
    ensures parse(contactInformation).Parsed? && !parse(contactInformation).value.Array? ==>
      LoadContacts(contactInformation, parse) == [EmptyContact]
    ensures parse(contactInformation).Parsed? && parse(contactInformation).value.Array?
            && (forall j :: 0 <= j < |parse(contactInformation).value.items|
                  ==> !HasTypeAndValue(parse(contactInformation).value.items[j])) ==>
      LoadContacts(contactInformation, parse) == [EmptyContact]
    ensures parse(contactInformation).Parsed? && parse(contactInformation).value.Array?
            && (exists i :: 0 <= i < |parse(contactInformation).value.items|
                  && parse(contactInformation).value.items[i].Null?
                  && forall j :: 0 <= j < i ==> !HasTypeAndValue(parse(contactInformation).value.items[j])) ==>
      LoadContacts(contactInformation, parse) == [EmptyContact]
  {
    var p := parse(contactInformation);
    if p.Parsed? && p.value.Array? {
      var items := p.value.items;
      SomeHasTypeAndValueIff(items);
      if exists i :: 0 <= i < |items| && items[i].Null? && forall j :: 0 <= j < i ==> !HasTypeAndValue(items[j]) {
        var i :| 0 <= i < |items| && items[i].Null? && forall j :: 0 <= j < i ==> !HasTypeAndValue(items[j]);
        assert !HasTypeAndValue(items[i]);
      }
    }
  }

  /** Otherwise the loaded list is exactly the entries with a truthy type
      and value, in their stored order. */
  lemma LoadValidEntries(contactInformation: string, parse: string -> Parse, i: int)
    requires contactInformation != []
    requires parse(contactInformation).Parsed? && parse(contactInformation).value.Array?
    requires 0 <= i < |parse(contactInformation).value.items|
    requires HasTypeAndValue(parse(contactInformation).value.items[i])
    requires forall j :: 0 <= j < i ==> !parse(contactInformation).value.items[j].Null?
    ensures LoadContacts(contactInformation, parse)
            == Filter(IsValidContact, parse(contactInformation).value.items)
    ensures forall e :: e in LoadContacts(contactInformation, parse) <==>
      e in parse(contactInformation).value.items && IsValidContact(e)
    ensures IsSubsequence(LoadContacts(contactInformation, parse), parse(contactInformation).value.items)
  {
    var items := parse(contactInformation).value.items;
    SomeHasTypeAndValueIff(items);
    assert IsValidContact(items[i]) by {
      assert items[i].Object?;
    }
    FilterMembership(IsValidContact, items, items[i]);
    forall e {
      FilterMembership(IsValidContact, items, e);
    }
    FilterIsSubsequence(IsValidContact, items);
  }

  /** Every loaded row is an object: a blank row or a stored entry with a
      truthy type and value. */
  lemma LoadedRowsAreObjects(contactInformation: string, parse: string -> Parse)
    ensures AllObjects(LoadContacts(contactInformation, parse))
  {
    var r := LoadContacts(contactInformation, parse);
    forall k | 0 <= k < |r| ensures r[k].Object? {
      assert r[k] in r;
    }
  }

  /** Every entry of the list is an object. */
  predicate AllObjects(contacts: seq<Value>)
  {
    forall k :: 0 <= k < |contacts| ==> contacts[k].Object?
  }

  /** `newContacts[index][field] = value` on a copy of the list: entry
      `index` with that one property replaced. */
  function WithField(contacts: seq<Value>, index: int, field: ContactField, value: string): (r: seq<Value>)
    requires 0 <= index < |contacts| && contacts[index].Object?
    ensures |r| == |contacts|
  {
    contacts[index := Object(contacts[index].members[Key(field) := Str(value)])]
  }

  /** An edit sets exactly the named field of the named entry: every other
      entry, and the other field of that entry, are as they were. */
  lemma EditTouchesOneField(contacts: seq<Value>, index: int, field: ContactField, value: string)
    requires 0 <= index < |contacts| && contacts[index].Object?
    ensures var r := WithField(contacts, index, field, value);
      && Get(r[index], Key(field)) == Some(Str(value))
      && (forall g :: g != field ==> Get(r[index], Key(g)) == Get(contacts[index], Key(g)))
      && (forall k :: 0 <= k < |r| && k != index ==> r[k] == contacts[k])
      && (AllObjects(contacts) ==> AllObjects(r))
  {
  }

  /** `handleProfilePicChange`: the chosen file is kept when there is one
      and it is at most 5 MiB; otherwise the selection is cleared. */
  function KeptImage(file: Option<File>): (r: Option<File>)
    ensures r.Some? <==> file.Some? && file.value.size <= 5 * 1024 * 1024
    ensures r.Some? ==> r == file
  {
    if file.Some? && WithinSizeLimit(file.value) then file else None
  }

  /** The contact editor and the identity fields of the page. */
  class LabSettingsForm {
    var labId: string
    var labName: string
    var contactInformation: string
    var contacts: seq<Value>
    var image: Option<File>

    /** The editor always shows at least one row, and every row is an
        object with `type` and `value`. */
    ghost predicate Valid()
      reads this
    {
      |contacts| >= 1 && AllObjects(contacts)
    }

    /** The initial state: one blank row, no stored text, no image. */
    constructor ()
      ensures Valid()
      ensures contacts == [EmptyContact]
      ensures labId == "" && labName == "" && contactInformation == "" && image == None
    {
      labId, labName, contactInformation := "", "", "";
      contacts := [EmptyContact];
      image := None;
    }

    /** `setContactInformation(text)` from the profile fetch. The effect that
        reloads the rows depends on `contactInformation` alone, so it runs
        only when the text differs from the current one; the same text
        again keeps the rows, edits included. */
    method SetContactInformation(text: string, parse: string -> Parse)
      requires Valid()
      modifies this
      ensures Valid()
      ensures contactInformation == text
      ensures text == old(contactInformation) ==> contacts == old(contacts)
      ensures text != old(contactInformation) ==> contacts == LoadContacts(text, parse)
      ensures labId == old(labId) && labName == old(labName) && image == old(image)
    {
      if text != contactInformation {
        contactInformation := text;
        contacts := LoadContacts(text, parse);
        LoadedRowsAreObjects(text, parse);
      }
    }

    /** `handleChange(index, field, value)`: sets one field of one row. An
        index that is not a row makes the assignment throw, so nothing
        changes. */
    method HandleChange(index: int, field: ContactField, value: string)
      requires Valid()
      modifies this
      ensures Valid()
      ensures 0 <= index < |old(contacts)| ==> contacts == WithField(old(contacts), index, field, value)
      ensures !(0 <= index < |old(contacts)|) ==> contacts == old(contacts)
      ensures labId == old(labId) && labName == old(labName)
      ensures contactInformation == old(contactInformation) && image == old(image)
    {
      if 0 <= index < |contacts| {
        EditTouchesOneField(contacts, index, field, value);
        contacts := WithField(contacts, index, field, value);
      }
    }

    /** `addContactField`: one blank row at the end. */
    method AddContactField()
      requires Valid()
      modifies this
      ensures Valid()
      ensures contacts == old(contacts) + [EmptyContact]
      ensures labId == old(labId) && labName == old(labName)
      ensures contactInformation == old(contactInformation) && image == old(image)
    {
      contacts := contacts + [EmptyContact];
    }

    /** `removeContactField(indexToRemove)`: nothing when one row is left;
        otherwise the row at that index, if any, is removed and the rest
        keep their order. The list never drops below one row. */
    method RemoveContactField(indexToRemove: int)
      requires Valid()
      modifies this
      ensures Valid()
      ensures |old(contacts)| <= 1 ==> contacts == old(contacts)
      ensures |old(contacts)| > 1 ==> contacts == RemoveAt(old(contacts), indexToRemove)
      ensures labId == old(labId) && labName == old(labName)
      ensures contactInformation == old(contactInformation) && image == old(image)
    {
      if |contacts| <= 1 {
        return;
      }
      contacts := RemoveAt(contacts, indexToRemove);
    }

    /** `handleProfilePicChange`: the selection after choosing `file`. */
    method HandleProfilePicChange(file: Option<File>)
      modifies this
      ensures image == KeptImage(file)
      ensures contacts == old(contacts)
      ensures labId == old(labId) && labName == old(labName)
      ensures contactInformation == old(contactInformation)
    {
      image := KeptImage(file);
    }

    /** `handleLabNameChange` as written: the text typed into the
        "Laboratory Name" box is stored as the laboratory id, so the box,
        which shows `labName`, keeps its old text. */
    method HandleLabNameChangeAsWritten(value: string)
      modifies this
      ensures labId == value
      ensures labName == old(labName)
      ensures contacts == old(contacts) && contactInformation == old(contactInformation)
      ensures image == old(image)
    {
      labId := value;
    }

    /** `handleLabNameChange` as intended: the typed text becomes the
        laboratory name and the read-only id is left alone. */
    method HandleLabNameChange(value: string)
      modifies this
      ensures labName == value
      ensures labId == old(labId)
      ensures contacts == old(contacts) && contactInformation == old(contactInformation)
      ensures image == old(image)
    {
      labName := value;
    }
  }

  /** Typing a name into a freshly loaded form with the handler as written:
      the name box still shows the empty name and the id has become the
      typed text. */
  method LabNameEditAsWritten(typed: string) returns (shownName: string, storedId: string)
    ensures shownName == ""
    ensures storedId == typed
  {
    var form := new LabSettingsForm();
    form.HandleLabNameChangeAsWritten(typed);
    shownName, storedId := form.labName, form.labId;
  }

  /** The same edit with the intended handler: the box shows the typed text
      and the id is untouched. */
  method LabNameEdit(typed: string) returns (shownName: string, storedId: string)
    ensures shownName == typed
    ensures storedId == ""
  {
    var form := new LabSettingsForm();
    form.HandleLabNameChange(typed);
    shownName, storedId := form.labName, form.labId;
  }
}

=== FILE: notification.dfy ===
/** The patient's connection-request page
    (src/app/dashboard/patient/notification/page.tsx): requests from
    laboratories, pharmacies and doctors, each category split into a
    pending and an accepted list by the record's string status, and the
    one-way move of a request from pending to accepted once the server has
    accepted it. */
module RequestNotifications {

  import opened Outcomes
  import opened Seqs
  import CivilDate

  /** One connection request as the server sends it. Only the fields that
      the page reads or writes are typed; the optional ones identify the
      requesting laboratory, pharmacy or doctor. */
  datatype Request = Request(
    id: string,
    addedDate: string,
    addedTime: string,
    status: string,
    labId: Option<string>,
    labName: Option<string>,
    pharmacyId: Option<string>,
    pharmacyName: Option<string>,
    doctorId: Option<string>,
    firstName: Option<string>,
    lastName: Option<string>)

  /** The three request categories, each with its own tab. */
  datatype Category = Lab | Pharmacy | Doctor

  /** The `type` string the accept button passes, as the `switch` reads it. */
  function CategoryOf(kind: string): (r: Option<Category>)
    ensures r == Some(Lab) <==> kind == "lab"
    ensures r == Some(Pharmacy) <==> kind == "pharmacy"
    ensures r == Some(Doctor) <==> kind == "doctor"
  {
    if kind == "lab" then Some(Lab)
    else if kind == "pharmacy" then Some(Pharmacy)
    else if kind == "doctor" then Some(Doctor)
    else None
  }

  const PendingStatus: string := "false"
  const AcceptedStatus: string := "true"

  /** The fetched records that are pending, in fetched order. */
  function PendingOf(fetched: seq<Request>): (r: seq<Request>)
    ensures forall x :: x in r <==> x in fetched && x.status == PendingStatus
  {
    Filter((r: Request) => r.status == PendingStatus, fetched)
  }

  /** The fetched records that are accepted, in fetched order. */
  function AcceptedOf(fetched: seq<Request>): (r: seq<Request>)
    ensures forall x :: x in r <==> x in fetched && x.status == AcceptedStatus
  {
    Filter((r: Request) => r.status == AcceptedStatus, fetched)
  }

  /** A record is pending exactly when it was fetched with status "false",
      and accepted exactly when it was fetched with status "true". */
  lemma PartitionMembership(fetched: seq<Request>, x: Request)
    ensures x in PendingOf(fetched) <==> x in fetched && x.status == "false"
    ensures x in AcceptedOf(fetched) <==> x in fetched && x.status == "true"
  {
    FilterMembership((r: Request) => r.status == PendingStatus, fetched, x);
    FilterMembership((r: Request) => r.status == AcceptedStatus, fetched, x);
  }

  /** The two lists of a category are disjoint, and a record whose status is
      any other string appears in neither. */
  lemma PartitionDisjoint(fetched: seq<Request>, x: Request)
    ensures !(x in PendingOf(fetched) && x in AcceptedOf(fetched))
    ensures x.status != "false" && x.status != "true" ==>
      x !in PendingOf(fetched) && x !in AcceptedOf(fetched)
  {
    PartitionMembership(fetched, x);
  }

  /** Both lists keep the fetched order: partitioning a concatenation
      partitions each part, and each list is a subsequence of the fetched
      records. */
  lemma PartitionKeepsOrder(a: seq<Request>, b: seq<Request>)
    ensures PendingOf(a + b) == PendingOf(a) + PendingOf(b)
    ensures AcceptedOf(a + b) == AcceptedOf(a) + AcceptedOf(b)
    ensures IsSubsequence(PendingOf(a), a) && IsSubsequence(AcceptedOf(a), a)
  {
    FilterAppend((r: Request) => r.status == PendingStatus, a, b);
    FilterAppend((r: Request) => r.status == AcceptedStatus, a, b);
    FilterIsSubsequence((r: Request) => r.status == PendingStatus, a);
    FilterIsSubsequence((r: Request) => r.status == AcceptedStatus, a);
  }

  /** The index of the first record with that id, or the length of the
      list when there is none. */
  function FirstIndex(requests: seq<Request>, id: string): (k: nat)
    ensures k <= |requests|
    ensures forall i :: 0 <= i < k ==> requests[i].id != id
    ensures k < |requests| ==> requests[k].id == id
  {
    if requests == [] || requests[0].id == id then 0
    else 1 + FirstIndex(requests[1..], id)
  }

  /** `requests.find((req) => req._id === id)`: the first record with that
      id, if any. */
  function Find(requests: seq<Request>, id: string): (r: Option<Request>)
    ensures r.None? <==> forall i :: 0 <= i < |requests| ==> requests[i].id != id
    ensures r.Some? ==> r.value in requests && r.value.id == id
    ensures r.Some? ==> exists k :: (0 <= k < |requests| && requests[k] == r.value
                                     && forall i :: 0 <= i < k ==> requests[i].id != id)
  {
    var k := FirstIndex(requests, id);
    if k < |requests| then Some(requests[k]) else None
  }

  /** `prev.filter((req) => req._id !== id)`. */
  function WithoutId(requests: seq<Request>, id: string): seq<Request>
  {
    Filter((r: Request) => r.id != id, requests)
  }

  /** The record appended to the accepted list: the found record with status
      "true" and a fresh date and time. */
  function Stamped(r: Request, date: string, time: string): Request
  {
    r.(status := AcceptedStatus, addedDate := date, addedTime := time)
  }

  /** `moveRequest` on one category's two lists: when the id is pending,
      every pending record with it is removed and the first one, re-stamped,
      is appended to the accepted list; otherwise nothing changes. */
  function Move(pending: seq<Request>, accepted: seq<Request>, id: string,
                date: string, time: string): (r: (seq<Request>, seq<Request>))
    ensures forall x :: x in r.0 <==> x in pending && x.id != id
    ensures r.0 == Filter((x: Request) => x.id != id, pending)
    ensures |r.0| + Count((x: Request) => x.id == id, pending) == |pending|
    ensures accepted <= r.1 && |r.1| <= |accepted| + 1
    ensures |r.1| == |accepted| + 1 <==> exists i :: 0 <= i < |pending| && pending[i].id == id
    ensures |r.1| == |accepted| + 1 ==>
      r.1[|accepted|].id == id && r.1[|accepted|].status == AcceptedStatus
  {
    match Find(pending, id)
    case None =>
      FilterAll((x: Request) => x.id != id, pending);
      FilterNone((x: Request) => x.id == id, pending);
      FilterLength((x: Request) => x.id == id, pending);
      (pending, accepted)
    case Some(found) =>
      CountComplement((x: Request) => x.id == id, (x: Request) => x.id != id, pending);
      FilterLength((x: Request) => x.id != id, pending);
      (WithoutId(pending, id), accepted + [Stamped(found, date, time)])
  }

  /** An id that is not pending leaves both lists as they are. */
  lemma MoveAbsent(pending: seq<Request>, accepted: seq<Request>, id: string,
                   date: string, time: string)
    requires forall r :: r in pending ==> r.id != id
    ensures Move(pending, accepted, id, date, time) == (pending, accepted)
  {
    assert forall i :: 0 <= i < |pending| ==> pending[i] in pending;
  }

  /** An id that is pending leaves no pending record with it, keeps the
      other pending records in order, and appends exactly one record to the
      accepted list: the first pending record with that id (at index
      `FirstIndex`), with status "true", the given date and time, and every
      other field as it was. */
  lemma MovePresent(pending: seq<Request>, accepted: seq<Request>, id: string,
                    date: string, time: string)
    requires exists r :: r in pending && r.id == id
    ensures var (p, a) := Move(pending, accepted, id, date, time);
      && p == Filter((r: Request) => r.id != id, pending)
      && (forall r :: r in p <==> r in pending && r.id != id)
      && IsSubsequence(p, pending)
      && |a| == |accepted| + 1 && a[..|accepted|] == accepted
      && var k := FirstIndex(pending, id);
      && k < |pending|
      && a[|accepted|] == pending[k].(status := "true", addedDate := date, addedTime := time)
  {
    var found := Find(pending, id);
    var keep := (r: Request) => r.id != id;
    forall r ensures r in WithoutId(pending, id) <==> r in pending && r.id != id {
      FilterMembership(keep, pending, r);
    }
    FilterIsSubsequence(keep, pending);
    var a := accepted + [Stamped(found.value, date, time)];
    assert a[..|accepted|] == accepted;
  }

  /** Accepting the same id again changes nothing: after a move no pending
      record carries that id. */
  lemma MoveTwice(pending: seq<Request>, accepted: seq<Request>, id: string,
                  date: string, time: string, date2: string, time2: string)
    ensures var (p, a) := Move(pending, accepted, id, date, time);
      Move(p, a, id, date2, time2) == (p, a)
  {
    var (p, a) := Move(pending, accepted, id, date, time);
    if Find(pending, id).Some? {
      forall r | r in p ensures r.id != id {
        FilterMembership((r: Request) => r.id != id, pending, r);
      }
    }
    MoveAbsent(p, a, id, date2, time2);
  }

  /** When the id occurs exactly once among the pending records, the move
      keeps the combined size of the two lists. */
  lemma MoveKeepsSize(pending: seq<Request>, accepted: seq<Request>, id: string,
                      date: string, time: string)
    requires Count((r: Request) => r.id == id, pending) == 1
    ensures var (p, a) := Move(pending, accepted, id, date, time);
      |p| + |a| == |pending| + |accepted|
  {
    var has := (r: Request) => r.id == id;
    var keep := (r: Request) => r.id != id;
    CountComplement(has, keep, pending);
    FilterLength(keep, pending);
    if Find(pending, id).None? {
      FilterNone(has, pending);
      FilterLength(has, pending);
    }
  }

  /** The page's six request lists. */
  class RequestBoard {
    var labRequests: seq<Request>
    var pharmacyRequests: seq<Request>
    var doctorRequests: seq<Request>
    var acceptedLabRequests: seq<Request>
    var acceptedPharmacyRequests: seq<Request>
    var acceptedDoctorRequests: seq<Request>

    /** The pending list of a category. */
    function Pending(c: Category): seq<Request>
      reads this
    {
      match c
      case Lab => labRequests
      case Pharmacy => pharmacyRequests
      case Doctor => doctorRequests
    }

    /** The accepted list of a category. */
    function Accepted(c: Category): seq<Request>
      reads this
    {
      match c
      case Lab => acceptedLabRequests
      case Pharmacy => acceptedPharmacyRequests
      case Doctor => acceptedDoctorRequests
    }

    /** Every pending record has status "false" and every accepted one
        status "true"; so no record is both pending and accepted. */
    ghost predicate Valid()
      reads this
    {
      && AllWithStatus(labRequests, PendingStatus)
      && AllWithStatus(pharmacyRequests, PendingStatus)
      && AllWithStatus(doctorRequests, PendingStatus)
      && AllWithStatus(acceptedLabRequests, AcceptedStatus)
      && AllWithStatus(acceptedPharmacyRequests, AcceptedStatus)
      && AllWithStatus(acceptedDoctorRequests, AcceptedStatus)
    }

    /** The six lists start empty. */
    constructor ()
      ensures Valid()
      ensures forall c :: Pending(c) == [] && Accepted(c) == []
    {
      labRequests, pharmacyRequests, doctorRequests := [], [], [];
      acceptedLabRequests, acceptedPharmacyRequests, acceptedDoctorRequests := [], [], [];
    }

    /** `fetchRequests`: the three GETs run together; when all succeed,
        each category's lists become the partition of its response; when
        any fails, no list changes. */
    method FetchRequests(lab: Outcome<seq<Request>>, pharmacy: Outcome<seq<Request>>,
                         doctor: Outcome<seq<Request>>)
      requires Valid()
      modifies this
      ensures Valid()
      ensures lab.Success? && pharmacy.Success? && doctor.Success? ==>
        && Pending(Lab) == PendingOf(lab.data) && Accepted(Lab) == AcceptedOf(lab.data)
        && Pending(Pharmacy) == PendingOf(pharmacy.data) && Accepted(Pharmacy) == AcceptedOf(pharmacy.data)
        && Pending(Doctor) == PendingOf(doctor.data) && Accepted(Doctor) == AcceptedOf(doctor.data)
      ensures !(lab.Success? && pharmacy.Success? && doctor.Success?) ==> unchanged(this)
    {
      if lab.Success? && pharmacy.Success? && doctor.Success? {
        PartitionStatuses(lab.data);
        PartitionStatuses(pharmacy.data);
        PartitionStatuses(doctor.data);
        labRequests, acceptedLabRequests := PendingOf(lab.data), AcceptedOf(lab.data);
        pharmacyRequests, acceptedPharmacyRequests := PendingOf(pharmacy.data), AcceptedOf(pharmacy.data);
        doctorRequests, acceptedDoctorRequests := PendingOf(doctor.data), AcceptedOf(doctor.data);
      }
    }

    /** `handleAcceptRequest(id, kind)`: after the accept POST succeeds, the
        request moves from the pending to the accepted list of the category
        `kind` names, stamped with today's UTC date (`toISOString` of the
        clock `nowMs`) and the local time `localTime`. A failed POST, or a
        `kind` that names no category, changes no list; a move never touches
        another category's lists. */
    method AcceptRequest(id: string, kind: string, post: Outcome<Unit>, nowMs: int, localTime: string)
      requires Valid()
      requires -CivilDate.MaxTimeValue <= nowMs <= CivilDate.MaxTimeValue
      modifies this
      ensures Valid()
      ensures post.Failure? || CategoryOf(kind).None? ==> unchanged(this)
      ensures post.Success? && CategoryOf(kind).Some? ==>
        var c := CategoryOf(kind).value;
        && (Pending(c), Accepted(c))
           == Move(old(Pending(c)), old(Accepted(c)), id, CivilDate.IsoDateOfTime(nowMs).value, localTime)
        && forall d :: d != c ==> Pending(d) == old(Pending(d)) && Accepted(d) == old(Accepted(d))
    {
      if post.Failure? {
        return;
      }
      var today := CivilDate.IsoDateOfTime(nowMs).value;
      match CategoryOf(kind)
      case None =>
      case Some(c) =>
        var (p, a) := Move(Pending(c), Accepted(c), id, today, localTime);
        MoveKeepsStatuses(Pending(c), Accepted(c), id, today, localTime);
        SetLists(c, p, a);
    }

    /** The state setters of one category: its two lists are replaced and
        the other categories' lists are kept. */
    method SetLists(c: Category, pending: seq<Request>, accepted: seq<Request>)
      requires Valid()
      requires AllWithStatus(pending, PendingStatus) && AllWithStatus(accepted, AcceptedStatus)
      modifies this
      ensures Valid()
      ensures Pending(c) == pending && Accepted(c) == accepted
      ensures forall d :: d != c ==> Pending(d) == old(Pending(d)) && Accepted(d) == old(Accepted(d))
    {
      match c
      case Lab => labRequests, acceptedLabRequests := pending, accepted;
      case Pharmacy => pharmacyRequests, acceptedPharmacyRequests := pending, accepted;
      case Doctor => doctorRequests, acceptedDoctorRequests := pending, accepted;
    }
  }

  /** Every record of the list has the given status. */
  predicate AllWithStatus(requests: seq<Request>, status: string)
  {
    forall i :: 0 <= i < |requests| ==> requests[i].status == status
  }

  /** The partition's pending records are all "false" and its accepted
      records all "true". */
  lemma PartitionStatuses(fetched: seq<Request>)
    ensures AllWithStatus(PendingOf(fetched), PendingStatus)
    ensures AllWithStatus(AcceptedOf(fetched), AcceptedStatus)
  {
    forall i | 0 <= i < |PendingOf(fetched)|
      ensures PendingOf(fetched)[i].status == PendingStatus
    {
      PartitionMembership(fetched, PendingOf(fetched)[i]);
    }
    forall i | 0 <= i < |AcceptedOf(fetched)|
      ensures AcceptedOf(fetched)[i].status == AcceptedStatus
    {
      PartitionMembership(fetched, AcceptedOf(fetched)[i]);
    }
  }

  /** A move keeps every pending record "false" and every accepted record
      "true". */
  lemma MoveKeepsStatuses(pending: seq<Request>, accepted: seq<Request>, id: string,
                          date: string, time: string)
    requires AllWithStatus(pending, PendingStatus)
    requires AllWithStatus(accepted, AcceptedStatus)
    ensures var (p, a) := Move(pending, accepted, id, date, time);
      AllWithStatus(p, PendingStatus) && AllWithStatus(a, AcceptedStatus)
  {
    var p := WithoutId(pending, id);
    forall i | 0 <= i < |p|
      ensures p[i].status == PendingStatus
    {
      assert p[i] in pending;
    }
  }
}

=== FILE: outcomes.dfy ===
/** Outcomes of calls the pages make into code this model does not contain:
    an HTTP request either succeeds with the response data or fails, and an
    optional value is either present or absent. */
module Outcomes {

  /** The result of one request to the server (an `api`, `axios` or `fetch`
      call): its response data, or a failure of any kind (network error,
      non-2xx status), which the pages all handle alike in a `catch`. */
  datatype Outcome<+T> = Success(data: T) | Failure

  /** An optional value: a JavaScript `null`/`undefined` is `None`. */
  datatype Option<+T> = None | Some(value: T)

  /** The unit value, for requests whose response the page ignores. */
  datatype Unit = Unit
}

=== FILE: patient_list.dfy ===
/** The pharmacy's patient list (src/app/dashboard/pharmacy/patientlist/page.tsx):
    the search filter over the fetched patients and the link to the chat
    page of one patient. */
module PatientList {

  import opened Outcomes
  import opened Seqs
  import opened Text
  import QueryString

  /** A patient as the server lists them. */
  datatype Patient = Patient(patientId: string, firstName: string, lastName: string,
                             profilePic: Option<string>)

  /** The filter's test: the lowercased full name `first last`, or the
      lowercased id, includes the lowercased query. */
  predicate Matches(p: Patient, query: string)
    ensures query == "" ==> Matches(p, query)
  {
    ContainsEmpty(LowerAscii(p.patientId));
    var searchLower := LowerAscii(query);
    Contains(LowerAscii(p.firstName + " " + p.lastName), searchLower)
    || Contains(LowerAscii(p.patientId), searchLower)
  }

  /** `filteredPatients`: the patients that match the query, in list
      order. */
  function FilteredPatients(patients: seq<Patient>, query: string): (r: seq<Patient>)
    ensures |r| <= |patients|
    ensures forall p :: p in r <==> p in patients && Matches(p, query)
  {
    Filter((p: Patient) => Matches(p, query), patients)
  }

  /** The filtered list keeps the order of the list, and keeps a patient
      exactly when it is listed and matches. */
  lemma FilterKeepsMatches(patients: seq<Patient>, query: string)
    ensures IsSubsequence(FilteredPatients(patients, query), patients)
    ensures forall p :: p in FilteredPatients(patients, query) <==> p in patients && Matches(p, query)
  {
    FilterIsSubsequence((p: Patient) => Matches(p, query), patients);
    forall p {
      FilterMembership((p: Patient) => Matches(p, query), patients, p);
    }
  }

  /** An empty query keeps every patient. */
  lemma EmptyQueryKeepsAll(patients: seq<Patient>)
    ensures FilteredPatients(patients, "") == patients
  {
    forall i | 0 <= i < |patients| ensures Matches(patients[i], "") {
      ContainsEmpty(LowerAscii(patients[i].patientId));
    }
    FilterAll((p: Patient) => Matches(p, ""), patients);
  }

  /** Filtering the filtered list again with the same query changes
      nothing. */
  lemma FilterIdempotentForQuery(patients: seq<Patient>, query: string)
    ensures FilteredPatients(FilteredPatients(patients, query), query)
            == FilteredPatients(patients, query)
  {
    FilterIdempotent((p: Patient) => Matches(p, query), patients);
  }

  /** Queries that differ only in the case of ASCII letters filter
      alike. */
  lemma QueryIgnoresCase(patients: seq<Patient>, a: string, b: string)
    requires SameIgnoringCase(a, b)
    ensures FilteredPatients(patients, a) == FilteredPatients(patients, b)
  {
    LowerAsciiOfSameIgnoringCase(a, b);
    FilterCongruent((p: Patient) => Matches(p, a), (p: Patient) => Matches(p, b), patients);
  }

  /** The chat page's path. */
  const MessagePath: string := "/dashboard/pharmacy/patient/message"

  /** The name of the query parameter that carries the id. */
  const ParamName: string := "patientId"

  /** `messagePage(patientId)`'s target: the chat page with the id as its
      `patientId` query parameter, inserted without encoding. */
  function MessagePageUrl(patientId: string): string
  {
    MessagePath + "?" + ParamName + "=" + patientId
  }

  /** A character that the link carries unchanged: no C0 control or space,
      and none of `#`, `&`, `%` and `+`, which the URL and form decoding
      treat specially. */
  predicate PlainIdChar(c: char)
  {
    c as int > 0x20 && c != '#' && c != '&' && c != '%' && c != '+'
  }

  /** An id of plain characters. */
  predicate PlainId(patientId: string)
  {
    forall i :: 0 <= i < |patientId| ==> PlainIdChar(patientId[i])
  }

  /** The path is plain and has no `?`. */
  lemma PathLiteral()
    ensures PlainId(MessagePath) && '?' !in MessagePath
  {
  }

  /** The parameter name is plain and has no `=`. */
  lemma NameLiteral()
    ensures PlainId(ParamName) && '=' !in ParamName
  {
  }

  /** The parameter name decodes to itself. */
  lemma NameDecodes()
    ensures QueryString.Decode(ParamName) == ParamName
  {
    NameLiteral();
    QueryString.DecodePlain(ParamName);
  }

  /** Plain strings joined by a plain character make a plain string. */
  lemma PlainJoin(a: string, c: char, b: string)
    requires PlainId(a) && PlainIdChar(c) && PlainId(b)
    ensures PlainId(a + [c] + b)
  {
    var s := a + [c] + b;
    forall i | 0 <= i < |s| ensures PlainIdChar(s[i]) {
      if i < |a| {
        assert s[i] == a[i];
      } else if i > |a| {
        assert s[i] == b[i - |a| - 1];
      }
    }
  }

  /** The query the link carries: the parameter name, `=`, the id. */
  function LinkQueryText(patientId: string): string
  {
    ParamName + "=" + patientId
  }

  /** The link is the path, `?` and its query, all plain but the `?`. */
  lemma LinkParts(patientId: string)
    requires PlainId(patientId)
    ensures MessagePageUrl(patientId) == MessagePath + ['?'] + LinkQueryText(patientId)
    ensures PlainId(MessagePath) && '?' !in MessagePath && MessagePath != []
    ensures PlainId(LinkQueryText(patientId)) && LinkQueryText(patientId) != []
  {
    PathLiteral();
    NameLiteral();
    PlainJoin(ParamName, '=', patientId);
  }

  /** The link holds no `#`, tab or newline. */
  lemma LinkChars(patientId: string)
    requires PlainId(patientId)
    ensures forall c :: c in MessagePageUrl(patientId) ==> c != '#' && !QueryString.IsTabOrNewline(c)
  {
    var url := MessagePageUrl(patientId);
    var query := LinkQueryText(patientId);
    LinkParts(patientId);
    forall i | 0 <= i < |url| ensures url[i] != '#' && !QueryString.IsTabOrNewline(url[i]) {
      if i < |MessagePath| {
        assert url[i] == MessagePath[i];
      } else if i > |MessagePath| {
        assert url[i] == query[i - |MessagePath| - 1];
      }
    }
  }

  /** The link starts and ends with a character above space. */
  lemma LinkEnds(patientId: string)
    requires PlainId(patientId)
    ensures QueryString.StripLeading(MessagePageUrl(patientId)) == MessagePageUrl(patientId)
    ensures QueryString.StripTrailing(MessagePageUrl(patientId)) == MessagePageUrl(patientId)
  {
    var url := MessagePageUrl(patientId);
    var query := LinkQueryText(patientId);
    LinkParts(patientId);
    assert url[0] == MessagePath[0];
    assert url[|url| - 1] == query[|query| - 1];
  }

  /** The URL parser's clean-up leaves the link as it is, and the link has
      no fragment. */
  lemma LinkIsClean(patientId: string)
    requires PlainId(patientId)
    ensures QueryString.CleanUrl(MessagePageUrl(patientId)) == MessagePageUrl(patientId)
    ensures '#' !in MessagePageUrl(patientId)
  {
    var url := MessagePageUrl(patientId);
    LinkChars(patientId);
    LinkEnds(patientId);
    FilterAll((c: char) => !QueryString.IsTabOrNewline(c), url);
  }

  /** The link's query is the parameter name, `=` and the id. */
  lemma LinkQuery(patientId: string)
    requires PlainId(patientId)
    ensures QueryString.Query(MessagePageUrl(patientId)) == Some(LinkQueryText(patientId))
  {
    var url := MessagePageUrl(patientId);
    var query := LinkQueryText(patientId);
    LinkIsClean(patientId);
    QueryString.IndexOfAbsent(url, '#');
    assert url[..|url|] == url;
    LinkParts(patientId);
    QueryString.IndexOfFirst(MessagePath, query, '?');
    assert url[|MessagePath| + 1..] == query;
  }

  /** The link's query is a single piece. */
  lemma KeyQueryPiece(patientId: string)
    requires PlainId(patientId)
    ensures Filter((p: string) => p != "", Split(LinkQueryText(patientId), '&'))
            == [LinkQueryText(patientId)]
  {
    var query := LinkQueryText(patientId);
    NameLiteral();
    PlainJoin(ParamName, '=', patientId);
    assert query == ParamName + ['='] + patientId;
    assert '&' !in query by {
      forall i | 0 <= i < |query| ensures query[i] != '&' {
        assert PlainIdChar(query[i]);
      }
    }
    SplitWithoutSeparator(query, '&');
    assert Filter((p: string) => p != "", [query]) == [query];
  }

  /** That piece names `patientId` and carries the id. */
  lemma KeyQueryPair(patientId: string)
    requires PlainId(patientId)
    ensures QueryString.Pair(LinkQueryText(patientId)) == (ParamName, patientId)
  {
    var query := LinkQueryText(patientId);
    NameLiteral();
    NameDecodes();
    assert query == ParamName + ['='] + patientId;
    QueryString.IndexOfFirst(ParamName, patientId, '=');
    assert query[..|ParamName|] == ParamName && query[|ParamName| + 1..] == patientId;
    assert '+' !in patientId && '%' !in patientId;
    QueryString.DecodePlain(patientId);
  }

  /** The link's query holds the one pair `patientId` = id. */
  lemma KeyQueryPairs(patientId: string)
    requires PlainId(patientId)
    ensures QueryString.Pairs(LinkQueryText(patientId)) == [(ParamName, patientId)]
  {
    KeyQueryPiece(patientId);
    KeyQueryPair(patientId);
  }

  /** The chat page reads back the id the list put into the link, for an id
      made of plain characters. */
  lemma MessagePageRoundTrip(patientId: string)
    requires PlainId(patientId)
    ensures QueryString.GetParam(MessagePageUrl(patientId), ParamName) == Some(patientId)
  {
    LinkQuery(patientId);
    KeyQueryPairs(patientId);
  }
}

=== FILE: query_string.dfy ===
/** Reading a query parameter from a relative URL, as `useSearchParams()`
    followed by `get(name)` does: the WHATWG URL parser's clean-up of the
    input, the query between the first `?` and the first `#`, and the
    `application/x-www-form-urlencoded` parsing of `URLSearchParams`. */
module QueryString {

  import opened Outcomes
  import opened Seqs
  import Text

  /** A C0 control or space: stripped from both ends of a URL. */
  predicate IsC0OrSpace(c: char)
  {
    c as int <= 0x20
  }

  /** ASCII tab or newline: removed from anywhere in a URL. */
  predicate IsTabOrNewline(c: char)
  {
    c == '\t' || c == '\n' || c == '\r'
  }

  /** The input without leading C0 controls and spaces. */
  function StripLeading(s: string): (r: string)
    ensures |r| <= |s|
  {
    if s != [] && IsC0OrSpace(s[0]) then StripLeading(s[1..]) else s
  }

  /** The input without trailing C0 controls and spaces. */
  function StripTrailing(s: string): (r: string)
    ensures |r| <= |s|
  {
    if s != [] && IsC0OrSpace(s[|s| - 1]) then StripTrailing(s[..|s| - 1]) else s
  }

  /** The URL parser's clean-up of its input. */
  function CleanUrl(url: string): string
  {
    Filter((c: char) => !IsTabOrNewline(c), StripTrailing(StripLeading(url)))
  }

  /** Index of the first `c` in `s`, or `|s|` when there is none. */
  function IndexOf(s: string, c: char): (k: nat)
    ensures k <= |s|
    ensures forall i :: 0 <= i < k ==> s[i] != c
    ensures k < |s| ==> s[k] == c
  {
    if s == [] || s[0] == c then 0 else 1 + IndexOf(s[1..], c)
  }

  /** In `a`, then `c`, then `b`, with no `c` in `a`, the first `c` is the
      one after `a`. */
  lemma {:induction false} IndexOfFirst(a: string, b: string, c: char)
    requires c !in a
    ensures IndexOf(a + [c] + b, c) == |a|
  {
    if a != [] {
      assert (a + [c] + b)[1..] == a[1..] + [c] + b;
      IndexOfFirst(a[1..], b, c);
    }
  }

  /** A string without `c` has no first `c`. */
  lemma IndexOfAbsent(s: string, c: char)
    requires c !in s
    ensures IndexOf(s, c) == |s|
  {
  }

  /** The URL's query: the text after the first `?` and before the first
      `#`; `None` when there is no `?` before the fragment. */
  function Query(url: string): Option<string>
  {
    var s := CleanUrl(url);
    var beforeFragment := s[..IndexOf(s, '#')];
    var q := IndexOf(beforeFragment, '?');
    if q < |beforeFragment| then Some(beforeFragment[q + 1..]) else None
  }

  /** The value of one hexadecimal digit, if it is one. */
  function HexValue(c: char): Option<nat>
  {
    if '0' <= c <= '9' then Some(c as nat - '0' as nat)
    else if 'a' <= c <= 'f' then Some(c as nat - 'a' as nat + 10)
    else if 'A' <= c <= 'F' then Some(c as nat - 'A' as nat + 10)
    else None
  }

  /** Form-urlencoded decoding of a name or value: `+` is a space, `%`
      followed by two hexadecimal digits of an ASCII byte is that byte, and
      every other character stands for itself. */
  function Decode(s: string): (r: string)
    ensures |r| <= |s|
  {
    if s == [] then []
    else if s[0] == '+' then " " + Decode(s[1..])
    else if s[0] == '%' && |s| >= 3 && HexValue(s[1]).Some? && HexValue(s[2]).Some?
            && HexValue(s[1]).value < 8 then
      [(HexValue(s[1]).value * 16 + HexValue(s[2]).value) as char] + Decode(s[3..])
    else [s[0]] + Decode(s[1..])
  }

  /** Text without `+` and `%` decodes to itself. */
  lemma {:induction false} DecodePlain(s: string)
    requires '+' !in s && '%' !in s
    ensures Decode(s) == s
  {
    if s != [] {
      DecodePlain(s[1..]);
      assert s == [s[0]] + s[1..];
    }
  }

  /** One `name=value` piece of the query: split at the first `=`, a piece
      without `=` having the empty value, both halves decoded. */
  function Pair(piece: string): (string, string)
  {
    var k := IndexOf(piece, '=');
    if k < |piece| then (Decode(piece[..k]), Decode(piece[k + 1..]))
    else (Decode(piece), "")
  }

  /** The query's name-value pairs, in order; empty pieces are skipped. */
  function Pairs(query: string): seq<(string, string)>
  {
    PairsOf(Filter((p: string) => p != "", Text.Split(query, '&')))
  }

  /** The pairs of a list of pieces. */
  function PairsOf(pieces: seq<string>): (r: seq<(string, string)>)
    ensures |r| == |pieces|
  {
    if pieces == [] then [] else [Pair(pieces[0])] + PairsOf(pieces[1..])
  }

  /** The value of the first pair with that name. */
  function Lookup(pairs: seq<(string, string)>, name: string): Option<string>
  {
    if pairs == [] then None
    else if pairs[0].0 == name then Some(pairs[0].1)
    else Lookup(pairs[1..], name)
  }

  /** `new URL(url).searchParams.get(name)` for a relative `url`. */
  function GetParam(url: string, name: string): Option<string>
  {
    match Query(url)
    case None => None
    case Some(q) => Lookup(Pairs(q), name)
  }
}

=== FILE: seqs.dfy ===
/** Sequence operations the pages use: `Array.prototype.filter` with a
    predicate, and the index-based removal `filter((_, i) => i !== k)`. */
module Seqs {

  /** `s.filter(p)`: the elements of `s` that satisfy `p`, in order. */
  function Filter<T>(p: T -> bool, s: seq<T>): (r: seq<T>)
    ensures |r| <= |s|
    ensures forall x :: x in r ==> x in s && p(x)
    ensures forall x :: x in s && p(x) ==> x in r
  {
    if s == [] then []
    else if p(s[0]) then [s[0]] + Filter(p, s[1..])
    else Filter(p, s[1..])
  }

  /** `a` is obtained from `b` by deleting elements, keeping the order of
      the rest. */
  predicate IsSubsequence<T(==)>(a: seq<T>, b: seq<T>)
    decreases |b|
  {
    if a == [] then true
    else if b == [] then false
    else (a[0] == b[0] && IsSubsequence(a[1..], b[1..])) || IsSubsequence(a, b[1..])
  }

  /** Number of elements of `s` that satisfy `p`. */
  function Count<T>(p: T -> bool, s: seq<T>): nat
  {
    if s == [] then 0 else (if p(s[0]) then 1 else 0) + Count(p, s[1..])
  }

  /** An element is kept exactly when it occurs in the input and satisfies
      the predicate. */
  lemma {:induction false} FilterMembership<T>(p: T -> bool, s: seq<T>, x: T)
    ensures x in Filter(p, s) <==> x in s && p(x)
  {
    if s != [] {
      FilterMembership(p, s[1..], x);
      assert s == [s[0]] + s[1..];
    }
  }

  /** Filtering distributes over concatenation: the order of the input is
      kept. */
  lemma {:induction false} FilterAppend<T>(p: T -> bool, a: seq<T>, b: seq<T>)
    ensures Filter(p, a + b) == Filter(p, a) + Filter(p, b)
  {
    if a == [] {
      assert a + b == b;
    } else {
      assert (a + b)[0] == a[0];
      assert (a + b)[1..] == a[1..] + b;
      FilterAppend(p, a[1..], b);
    }
  }

  /** The filtered sequence is a subsequence of the input. */
  lemma {:induction false} FilterIsSubsequence<T>(p: T -> bool, s: seq<T>)
    ensures IsSubsequence(Filter(p, s), s)
  {
    if s != [] {
      FilterIsSubsequence(p, s[1..]);
      if p(s[0]) {
        assert Filter(p, s)[0] == s[0];
        assert Filter(p, s)[1..] == Filter(p, s[1..]);
      } else if Filter(p, s) != [] {
        assert Filter(p, s) == Filter(p, s[1..]);
      }
    }
  }

  /** Filtering twice with the same predicate is filtering once. */
  lemma {:induction false} FilterIdempotent<T>(p: T -> bool, s: seq<T>)
    ensures Filter(p, Filter(p, s)) == Filter(p, s)
  {
    if s != [] {
      FilterIdempotent(p, s[1..]);
      if p(s[0]) {
        var t := Filter(p, s[1..]);
        assert ([s[0]] + t)[0] == s[0];
        assert ([s[0]] + t)[1..] == t;
      }
    }
  }

  /** A predicate that holds of every element keeps the whole sequence. */
  lemma {:induction false} FilterAll<T>(p: T -> bool, s: seq<T>)
    requires forall i :: 0 <= i < |s| ==> p(s[i])
    ensures Filter(p, s) == s
  {
    if s != [] {
      FilterAll(p, s[1..]);
      assert s == [s[0]] + s[1..];
    }
  }

  /** A predicate that holds of no element keeps nothing. */
  lemma {:induction false} FilterNone<T>(p: T -> bool, s: seq<T>)
    requires forall i :: 0 <= i < |s| ==> !p(s[i])
    ensures Filter(p, s) == []
  {
    if s != [] {
      FilterNone(p, s[1..]);
    }
  }

  /** The filtered sequence has as many elements as the input has elements
      satisfying the predicate. */
  lemma {:induction false} FilterLength<T>(p: T -> bool, s: seq<T>)
    ensures |Filter(p, s)| == Count(p, s)
  {
    if s != [] {
      FilterLength(p, s[1..]);
    }
  }

  /** Two predicates that agree on every element filter alike. */
  lemma {:induction false} FilterCongruent<T>(p: T -> bool, q: T -> bool, s: seq<T>)
    requires forall i :: 0 <= i < |s| ==> p(s[i]) == q(s[i])
    ensures Filter(p, s) == Filter(q, s)
  {
    if s != [] {
      FilterCongruent(p, q, s[1..]);
    }
  }

  /** `s.filter((_, i) => i !== k)`: the element at index `k` removed, or
      `s` itself when `k` is not an index of `s`. */
  function RemoveAt<T>(s: seq<T>, k: int): (r: seq<T>)
    ensures 0 <= k < |s| ==> |r| == |s| - 1
    ensures 0 <= k < |s| ==> forall i :: 0 <= i < k ==> r[i] == s[i]
    ensures 0 <= k < |s| ==> forall i :: k <= i < |r| ==> r[i] == s[i + 1]
    ensures !(0 <= k < |s|) ==> r == s
  {
    if 0 <= k < |s| then s[..k] + s[k + 1..] else s
  }

  /** Every element satisfies either a predicate or its negation. */
  lemma {:induction false} CountComplement<T>(p: T -> bool, q: T -> bool, s: seq<T>)
    requires forall x :: q(x) == !p(x)
    ensures Count(p, s) + Count(q, s) == |s|
  {
    if s != [] {
      CountComplement(p, q, s[1..]);
    }
  }
}

=== FILE: text.dfy ===
/** The JavaScript string operations the pages rely on: `trim`, ASCII
    `toLowerCase`, `includes`, `split` on one character and `join`.
    Strings are sequences of Unicode scalar values. */
module Text {

  /** The characters `String.prototype.trim` removes: the ECMAScript
      WhiteSpace (tab, vertical tab, form feed, space, no-break space, the
      byte order mark and every space separator) and LineTerminator
      (line feed, carriage return, line and paragraph separator) sets. */
  predicate IsSpace(c: char)
  {
    var n := c as int;
    (0x09 <= n <= 0x0D) || n == 0x20 || n == 0xA0 || n == 0x1680
    || (0x2000 <= n <= 0x200A) || n == 0x2028 || n == 0x2029
    || n == 0x202F || n == 0x205F || n == 0x3000 || n == 0xFEFF
  }

  /** The number of white-space characters at the start of `s`. */
  function LeadingSpaces(s: string): (n: nat)
    ensures n <= |s|
  {
    if s != [] && IsSpace(s[0]) then 1 + LeadingSpaces(s[1..]) else 0
  }

  /** The number of white-space characters at the end of `s`. */
  function TrailingSpaces(s: string): (n: nat)
    ensures n <= |s|
  {
    if s != [] && IsSpace(s[|s| - 1]) then 1 + TrailingSpaces(s[..|s| - 1]) else 0
  }

  /** The leading count covers white space only and stops at the first
      other character. */
  lemma {:induction false} LeadingSpacesExact(s: string)
    ensures forall i :: 0 <= i < LeadingSpaces(s) ==> IsSpace(s[i])
    ensures LeadingSpaces(s) < |s| ==> !IsSpace(s[LeadingSpaces(s)])
  {
    if s != [] && IsSpace(s[0]) {
      LeadingSpacesExact(s[1..]);
      assert forall i :: 1 <= i < |s| ==> s[i] == s[1..][i - 1];
    }
  }

  /** The trailing count covers white space only and stops at the last
      other character. */
  lemma {:induction false} TrailingSpacesExact(s: string)
    ensures forall i :: |s| - TrailingSpaces(s) <= i < |s| ==> IsSpace(s[i])
    ensures TrailingSpaces(s) < |s| ==> !IsSpace(s[|s| - TrailingSpaces(s) - 1])
  {
    if s != [] && IsSpace(s[|s| - 1]) {
      TrailingSpacesExact(s[..|s| - 1]);
    }
  }

  /** `s.trimStart()`. */
  function TrimStart(s: string): string
  {
    s[LeadingSpaces(s)..]
  }

  /** `s.trimEnd()`. */
  function TrimEnd(s: string): string
  {
    s[..|s| - TrailingSpaces(s)]
  }

  /** `s.trim()`. */
  function Trim(s: string): string
  {
    TrimEnd(TrimStart(s))
  }

  /** `!s.trim()`: the string is empty or white space only. */
  predicate IsBlank(s: string)
  {
    Trim(s) == []
  }

  /** `trim` returns the slice of the input between its leading and its
      trailing white space, and that slice neither starts nor ends with
      white space. */
  lemma TrimIsCore(s: string)
    ensures LeadingSpaces(s) <= |s| - TrailingSpaces(TrimStart(s))
    ensures Trim(s) == s[LeadingSpaces(s)..|s| - TrailingSpaces(TrimStart(s))]
    ensures forall k :: 0 <= k < LeadingSpaces(s) ==> IsSpace(s[k])
    ensures forall k :: |s| - TrailingSpaces(TrimStart(s)) <= k < |s| ==> IsSpace(s[k])
    ensures Trim(s) == [] || (!IsSpace(Trim(s)[0]) && !IsSpace(Trim(s)[|Trim(s)| - 1]))
  {
    var i := LeadingSpaces(s);
    var u := TrimStart(s);
    var n := TrailingSpaces(u);
    LeadingSpacesExact(s);
    TrailingSpacesExact(u);
    assert Trim(s) == u[..|u| - n] == s[i..|s| - n];
    forall k | |s| - n <= k < |s|
      ensures IsSpace(s[k])
    {
      assert s[k] == u[k - i];
    }
    if Trim(s) != [] {
      assert Trim(s)[0] == s[i];
      assert Trim(s)[|Trim(s)| - 1] == u[|u| - n - 1];
    }
  }

  /** A string is blank exactly when every character of it is white space. */
  lemma BlankIffAllSpace(s: string)
    ensures IsBlank(s) <==> forall i :: 0 <= i < |s| ==> IsSpace(s[i])
  {
    TrimIsCore(s);
    LeadingSpacesExact(s);
  }

  /** Trimming adds no character: what is missing from the text is missing
      from its trimmed form. */
  lemma TrimKeepsOut(s: string)
    ensures forall c :: c !in s ==> c !in Trim(s)
  {
    TrimIsCore(s);
  }

  /** Trimming is idempotent. */
  lemma TrimIdempotent(s: string)
    ensures Trim(Trim(s)) == Trim(s)
  {
    var t := Trim(s);
    if t != [] {
      TrimIsCore(s);
      assert LeadingSpaces(t) == 0;
      assert TrimStart(t) == t;
      assert TrailingSpaces(t) == 0;
    }
  }

  /** A leading space in front of a string is removed by `trim`. */
  lemma TrimLeadingSpace(s: string)
    ensures Trim(" " + s) == Trim(s)
  {
    var t := " " + s;
    assert t[0] == ' ' && t[1..] == s;
    assert LeadingSpaces(t) == 1 + LeadingSpaces(s);
    assert TrimStart(t) == TrimStart(s);
  }

  /** ASCII `toLowerCase` of one character. */
  function LowerChar(c: char): (r: char)
    ensures 'A' <= c <= 'Z' ==> 'a' <= r <= 'z' && r as int == c as int + 32
    ensures !('A' <= c <= 'Z') ==> r == c
  {
    if 'A' <= c <= 'Z' then (c as int + 32) as char else c
  }

  /** ASCII `toLowerCase` of a string (other letters are kept as they are). */
  function LowerAscii(s: string): (r: string)
    ensures |r| == |s|
    ensures forall i :: 0 <= i < |s| ==> r[i] == LowerChar(s[i])
  {
    seq(|s|, i requires 0 <= i < |s| => LowerChar(s[i]))
  }

  /** Lowercasing twice is lowercasing once. */
  lemma LowerAsciiIdempotent(s: string)
    ensures LowerAscii(LowerAscii(s)) == LowerAscii(s)
  {
  }

  /** Two strings that differ only in the case of ASCII letters. */
  predicate SameIgnoringCase(a: string, b: string)
  {
    |a| == |b| && forall i :: 0 <= i < |a| ==> LowerChar(a[i]) == LowerChar(b[i])
  }

  /** Strings that differ only in ASCII case lowercase to the same string. */
  lemma LowerAsciiOfSameIgnoringCase(a: string, b: string)
    requires SameIgnoringCase(a, b)
    ensures LowerAscii(a) == LowerAscii(b)
  {
  }

  /** `sub` is a prefix of `s`. */
  predicate IsPrefix(sub: string, s: string)
  {
    |sub| <= |s| && s[..|sub|] == sub
  }

  /** `s.includes(sub)`, scanning start positions from left to right. */
  predicate Contains(s: string, sub: string)
  {
    IsPrefix(sub, s) || (s != [] && Contains(s[1..], sub))
  }

  /** `sub` occurs in `s` starting at index `i`. */
  predicate OccursAt(s: string, sub: string, i: int)
  {
    0 <= i <= |s| - |sub| && s[i..i + |sub|] == sub
  }

  /** `includes` holds exactly when `sub` occurs at some position of `s`. */
  lemma {:induction false} ContainsIffOccurs(s: string, sub: string)
    ensures Contains(s, sub) <==> exists i :: OccursAt(s, sub, i)
  {
    if IsPrefix(sub, s) {
      assert OccursAt(s, sub, 0);
    } else if s == [] {
    } else {
      ContainsIffOccurs(s[1..], sub);
      if exists i :: OccursAt(s, sub, i) {
        var i :| OccursAt(s, sub, i);
        assert i != 0;
        assert s[1..][i - 1..i - 1 + |sub|] == s[i..i + |sub|];
        assert OccursAt(s[1..], sub, i - 1);
      }
      if Contains(s[1..], sub) {
        var i :| OccursAt(s[1..], sub, i);
        assert s[1..][i..i + |sub|] == s[i + 1..i + 1 + |sub|];
        assert OccursAt(s, sub, i + 1);
      }
    }
  }

  /** Every string includes the empty string. */
  lemma ContainsEmpty(s: string)
    ensures Contains(s, "")
  {
    assert IsPrefix("", s);
  }

  /** `xs.join(sep)`. */
  function Join(xs: seq<string>, sep: string): string
  {
    if |xs| == 0 then ""
    else if |xs| == 1 then xs[0]
    else xs[0] + sep + Join(xs[1..], sep)
  }

  /** `s.split(c)` on a one-character separator: the pieces between the
      occurrences of `c`; there is always at least one piece, and the empty
      string splits into one empty piece. */
  function Split(s: string, c: char): (r: seq<string>)
    ensures |r| >= 1
  {
    if s == [] then [""]
    else
      var rest := Split(s[1..], c);
      if s[0] == c then [""] + rest
      else [[s[0]] + rest[0]] + rest[1..]
  }

  /** No piece of a split contains the separator. */
  lemma {:induction false} SplitPiecesFree(s: string, c: char)
    ensures forall i :: 0 <= i < |Split(s, c)| ==> c !in Split(s, c)[i]
  {
    if s != [] {
      SplitPiecesFree(s[1..], c);
    }
  }

  /** Joining the pieces of a split with the separator gives back the
      string. */
  lemma {:induction false} JoinSplit(s: string, c: char)
    ensures Join(Split(s, c), [c]) == s
  {
    if s != [] {
      var rest := Split(s[1..], c);
      JoinSplit(s[1..], c);
      if s[0] == c {
        assert Join([""] + rest, [c]) == "" + [c] + Join(rest, [c]);
      } else {
        var r := [[s[0]] + rest[0]] + rest[1..];
        if |rest| == 1 {
          assert Join(r, [c]) == [s[0]] + rest[0];
        } else {
          assert r[1..] == rest[1..];
          assert Join(rest, [c]) == rest[0] + [c] + Join(rest[1..], [c]);
          assert Join(r, [c]) == [s[0]] + rest[0] + [c] + Join(rest[1..], [c]);
        }
        assert s == [s[0]] + s[1..];
      }
    }
  }

  /** A string without the separator is a single piece. */
  lemma {:induction false} SplitWithoutSeparator(s: string, c: char)
    requires c !in s
    ensures Split(s, c) == [s]
  {
    if s != [] {
      SplitWithoutSeparator(s[1..], c);
      assert s == [s[0]] + s[1..];
    }
  }

  /** A separator after a separator-free prefix ends the first piece. */
  lemma {:induction false} SplitAfterPiece(a: string, b: string, c: char)
    requires c !in a
    ensures Split(a + [c] + b, c) == [a] + Split(b, c)
  {
    if a == [] {
      assert a + [c] + b == [c] + b;
      assert ([c] + b)[1..] == b;
    } else {
      var s := a + [c] + b;
      assert s[0] == a[0];
      assert s[1..] == a[1..] + [c] + b;
      SplitAfterPiece(a[1..], b, c);
      assert a == [a[0]] + a[1..];
    }
  }
}

=== FILE: uploads.dfy ===
/** A file chosen in an `<input type="file">`, as the settings pages
    inspect it before uploading. */
module Uploads {

  /** The chosen file's size in bytes and its MIME type (`file.type`). */
  datatype File = File(size: nat, mimeType: string)

  /** The largest accepted picture: 5 MiB. */
  const MaxImageBytes: nat := 5 * 1024 * 1024

  /** The file passes the size bound. */
  predicate WithinSizeLimit(f: File)
  {
    f.size <= MaxImageBytes
  }
}
